=== FILE: README.md ===
# PdfWriter core, modelled in Dafny

This project models the engine inside the `PdfWriter` of the iText PDF
library (`core/src/main/java/com/itextpdf/core/pdf/PdfWriter.java`). It has
four parts:

- **Flush engine** (`flush.dfy`, module `Flush`). This covers
  `flushObject`, the "MustBeFlushed" cascade (`markObjectToFlush`,
  `markArrayContentToFlush`, `markDictionaryContentToFlush`), and the two
  sweeps over the cross-reference table: `flushWaitingObjects` repeats
  until a fixed point, and `flushModifiedWaitingObjects` makes one pass for
  incremental updates. It also covers the object-stream policy
  `getObjectStream`. The writer is an immutable `Writer` value: the table of
  indirect references with their Flushed / MustBeFlushed / Modified bits,
  the output position, and the open object stream.
- **Canonical serializer** of `ByteStore` (`canonical.dfy`, module
  `Canonical`; `keyorder.dfy`, module `KeyOrder`; `hashing.dfy`, module
  `Hashing`). This covers `serObject`, `serDic` and `serArray`, with the
  depth budget, the memo of already-serialized indirect objects, the
  skipped `Parent`/`P` entries and the sorted key order. It also covers
  `calculateHash` in 32-bit `int` arithmetic.
- **Content index** (`contentindex.dfy`, module `ContentIndex`). This covers
  `ByteStore` with its `equals`/`hashCode`, and `smartCopyObject`, which
  finds an earlier object with the same canonical bytes.
- **Copy engine** (`copy.dfy`, module `Copy`). This covers `copyObject`:
  the copy map `copiedObjects`, the smart-copy shortcut, and registration
  before the content is copied, so that cycles terminate. It also covers
  `getCopyObjectKey` as the writer computes it.

A PDF object graph is a table of nodes indexed by object number. A
reference is `Ref(num)`, so shared and cyclic graphs are plain relations between object numbers.

## Model

| member | source | states |
|---|---|---|
| Flush.GetObjectStream | core/src/main/java/com/itextpdf/core/pdf/PdfWriter.java:110-120 | Returns no stream exactly when full compression is off. Otherwise it returns a stream with room left: the open one if it is not full, else a fresh one chained to the full one after the full one was written. The writer invariant is kept. |
| Flush.PlaceObject | core/src/main/java/com/itextpdf/core/pdf/PdfWriter.java:132-138 | A packable object goes into a non-empty open object stream. Any other object is written inline and advances the output position by one. |
| Flush.FlushObject | core/src/main/java/com/itextpdf/core/pdf/PdfWriter.java:130-163 | The object becomes Flushed and not MustBeFlushed, and keeps its Modified bit. Its offset is the output position only when it was written inline. Its content is released, except that a reference keeps its target. Every other entry changes only by being marked, exactly when the flushed object points at it. The writer invariant is kept. |
| Flush.MarkContent | core/src/main/java/com/itextpdf/core/pdf/PdfWriter.java:141-162 | The cascade marks the items of an array, the values of a dictionary or stream, or a present reference target, and nothing else. |
| Flush.MarkObject | core/src/main/java/com/itextpdf/core/pdf/PdfWriter.java:177-196 | Marks exactly the entries the node reaches through direct arrays and dictionaries, sets MustBeFlushed only on entries not yet flushed, and leaves every other entry unchanged. |
| Flush.MarkItems | core/src/main/java/com/itextpdf/core/pdf/PdfWriter.java:165-169 | Marking the items of an array marks exactly what some item reaches. |
| Flush.MarkEntries | core/src/main/java/com/itextpdf/core/pdf/PdfWriter.java:171-175 | Marking the values of a dictionary marks exactly what some value reaches. |
| Flush.MarkHandle | core/src/main/java/com/itextpdf/core/pdf/PdfWriter.java:180-183 | A single reference is marked unless it is flushed, and nothing else changes. |
| Flush.FlushIndirect | core/src/main/java/com/itextpdf/core/pdf/PdfWriter.java:277-281 | Flushing an object with content leaves it Flushed. An object that is already flushed is not written again. |
| Flush.UnflushedDecreases | core/src/main/java/com/itextpdf/core/pdf/PdfWriter.java:271-284 | The count of unflushed entries never grows, and it drops when an entry becomes flushed, so the fixed-point loop terminates. |
| Flush.FlushStep | core/src/main/java/com/itextpdf/core/pdf/PdfWriter.java:274-281 | One flush in the sweep keeps earlier flushed entries untouched and waiting entries waiting. Every target of a newly flushed object is flushed or marked, and the unflushed count drops. |
| Flush.FlushStepOrdered | core/src/main/java/com/itextpdf/core/pdf/PdfWriter.java:274-281 | A flush step appends the flushed entry to the flush order. That entry was waiting at the start or was marked by an object flushed before it, and the step marks only targets of the object it flushes. |
| Flush.SweepPass | core/src/main/java/com/itextpdf/core/pdf/PdfWriter.java:272-283 | A pass that flushes nothing changes nothing and leaves no entry waiting with content. A pass that flushes something lowers the unflushed count. The pass extends the flush order it is given, in which each object flushed was waiting at the start or is a target of an object flushed before it, and it keeps the object streams already written. |
| Flush.FlushWaitingObjects | core/src/main/java/com/itextpdf/core/pdf/PdfWriter.java:268-289 | The sweep ends with no entry waiting with content, and every object that was waiting is flushed. The sweep also returns the order of its flushes: it lists every object the sweep flushed, and each one was waiting at the start or is a target of an object flushed before it. Each object flushed had all its targets flushed or marked. Flushed entries are untouched. Object streams written before are kept, and a non-empty object stream still open when the loop ends is written after them and closed, leaving the table as it is. |
| Flush.ModifiedStep | core/src/main/java/com/itextpdf/core/pdf/PdfWriter.java:301-303 | One flush of the incremental sweep changes the Flushed bit of that entry only. |
| Flush.FlushModifiedWaitingObjects | core/src/main/java/com/itextpdf/core/pdf/PdfWriter.java:296-309 | An entry ends flushed if and only if it was flushed before or was present and Modified. Entries that were flushed before are untouched. Object streams written before are kept, and a non-empty object stream still open when the loop ends is written after them and closed, leaving the table as it is. |
| Flush.IdleStaysIdle | core/src/main/java/com/itextpdf/core/pdf/PdfWriter.java:268-289 | When no entry was waiting, the flush order is empty and the sweep flushes nothing: every flush needs an earlier flush or a waiting entry to start from. |
| Flush.IdleCycleExample | core/src/main/java/com/itextpdf/core/pdf/PdfWriter.java:268-289 | Two objects that point at each other, with nothing waiting, are left unflushed by the sweep. |
| Flush.SweepExample | core/src/main/java/com/itextpdf/core/pdf/PdfWriter.java:268-289 | A chain 1 → 2 → 3 with only object 1 waiting ends with all three flushed: the cascade reaches objects nobody marked. |
| Hashing.CalculateHash | core/src/main/java/com/itextpdf/core/pdf/PdfWriter.java:464-470 | The loop's wrapped `int` arithmetic yields the 31-polynomial of the bytes reduced to a Java `int` once at the end. |
| Hashing.StepWraps | core/src/main/java/com/itextpdf/core/pdf/PdfWriter.java:468 | Wrapping after each step of `hash * 31 + b` agrees with wrapping the exact value. |
| Canonical.SerObject | core/src/main/java/com/itextpdf/core/pdf/PdfWriter.java:356-408 | An exhausted budget appends nothing, and null appends `$Lnull`. An indirect object already in the memo appends its stored hash. Any other indirect object ends up in the memo, and entries already in the memo are never changed. |
| Canonical.SerDic | core/src/main/java/com/itextpdf/core/pdf/PdfWriter.java:410-423 | Output starts with `$D`, and the memo only grows. |
| Canonical.SerEntries | core/src/main/java/com/itextpdf/core/pdf/PdfWriter.java:416-422 | The entry loop only extends the memo. |
| Canonical.SerArray | core/src/main/java/com/itextpdf/core/pdf/PdfWriter.java:425-432 | Output starts with `$A`, and the memo only grows. |
| Canonical.SerItems | core/src/main/java/com/itextpdf/core/pdf/PdfWriter.java:429-431 | The item loop only extends the memo. |
| Canonical.Skipped | core/src/main/java/com/itextpdf/core/pdf/PdfWriter.java:417 | `Parent` is always skipped and no key other than `Parent` and `P` is. A direct `P` value is skipped exactly when it is a dictionary. A `P` holding a reference is skipped exactly when its target is a dictionary or itself a reference, and a `P` whose target is missing is kept. |
| Canonical.SerEntriesKept | core/src/main/java/com/itextpdf/core/pdf/PdfWriter.java:417-418 | Skipping `Parent` and back-pointing `P` entries inside the loop is the same as serializing only the kept entries. |
| Canonical.SerDicOrderIndependent | core/src/main/java/com/itextpdf/core/pdf/PdfWriter.java:414-416 | Two dictionaries with the same entries in different insertion orders serialize to the same bytes. |
| Canonical.SerDicIgnoresSkipped | core/src/main/java/com/itextpdf/core/pdf/PdfWriter.java:414-418 | Dictionaries with the same kept entries serialize identically, whatever their `Parent` and back-pointing `P` entries hold and in whatever order the entries were inserted. |
| Canonical.ParentLinkIgnored | core/src/main/java/com/itextpdf/core/pdf/PdfWriter.java:417 | Changing a dictionary's `Parent` value does not change its bytes. |
| KeyOrder.SortEntriesSorted | core/src/main/java/com/itextpdf/core/pdf/PdfWriter.java:414-415 | The keys come out sorted, as a permutation of the entries. |
| KeyOrder.SortedUnique | core/src/main/java/com/itextpdf/core/pdf/PdfWriter.java:415 | There is only one sorted arrangement of entries with distinct keys. |
| KeyOrder.SortForgetsOrder | core/src/main/java/com/itextpdf/core/pdf/PdfWriter.java:414-415 | Two permutations of the same entries sort to the same sequence. |
| ContentIndex.MakeByteStore | core/src/main/java/com/itextpdf/core/pdf/PdfWriter.java:434-462 | The stored hash is the hash of the stored bytes, and the memo only grows. |
| ContentIndex.HashCode | core/src/main/java/com/itextpdf/core/pdf/PdfWriter.java:481-484 | The hash code of a constructed store is the Java `int` hash of its bytes. |
| ContentIndex.Equals | core/src/main/java/com/itextpdf/core/pdf/PdfWriter.java:472-479 | Equal stores have equal bytes. |
| ContentIndex.EqualsIsByteEquality | core/src/main/java/com/itextpdf/core/pdf/PdfWriter.java:472-484 | For constructed stores, `equals` holds if and only if the bytes are equal. A hash mismatch never rejects equal bytes. |
| ContentIndex.EqualsAgreesWithHashCode | core/src/main/java/com/itextpdf/core/pdf/PdfWriter.java:472-484 | Equal stores have equal hash codes. |
| ContentIndex.SmartCopyObject | core/src/main/java/com/itextpdf/core/pdf/PdfWriter.java:330-349 | Objects that are not dictionaries or streams are ignored. For a dictionary or stream, the lookup hits exactly when its canonical bytes are registered with a non-null identity, and then returns that identity and leaves the index unchanged. A miss registers the object's identity (null when direct) under its canonical bytes. Registered identities are never lost. |
| ContentIndex.RegisterThenFind | core/src/main/java/com/itextpdf/core/pdf/PdfWriter.java:330-349 | An object seen first is registered and nothing is returned. A later object with the same canonical bytes gets the first object's identity. |
| Canonical.DecimalUntagged | core/src/main/java/com/itextpdf/core/pdf/PdfWriter.java:369-371 | The stored hash of a memoized object is written as text that is never empty and never starts with `$`. |
| ContentIndex.FreshTagged | core/src/main/java/com/itextpdf/core/pdf/PdfWriter.java:379-400 | A dictionary or stream not yet in the memo is written out in full, and its text starts with `$`. |
| ContentIndex.MemoSplits | core/src/main/java/com/itextpdf/core/pdf/PdfWriter.java:366-406 | After the first lookup of an indirect dictionary or stream, the same object has different canonical bytes: its stored hash instead of its content. |
| ContentIndex.MemoHashMerges | core/src/main/java/com/itextpdf/core/pdf/PdfWriter.java:366-371 | Two dictionaries with the same key, referring to objects in the memo with equal stored hashes, have the same canonical bytes whatever those objects hold. |
| ContentIndex.HashCollides | core/src/main/java/com/itextpdf/core/pdf/PdfWriter.java:464-470 | Two different byte strings, `Aa` and `BB`, have the same hash. |
| Copy.Source | core/src/main/java/com/itextpdf/core/pdf/PdfWriter.java:199-203 | A reference is replaced by its target, and a missing target by the null object, so there is always an object to copy. |
| Copy.CopyObject | core/src/main/java/com/itextpdf/core/pdf/PdfWriter.java:198-232 | A copied object without duplication is answered from the copy map and nothing changes. A missing target copies to null. Without smart copy, or with smart hits recorded, an indirect object ends up in the copy map under the reference returned. Without smart copy, the result is a copy of the source node: scalars unchanged, containers item by item and key by key, and every present reference replaced by its entry in the final copy map; an object copied here has its destination object filled with a copy of its content. The state invariant holds, and earlier destination objects and map entries are kept. |
| Copy.CopyMiss | core/src/main/java/com/itextpdf/core/pdf/PdfWriter.java:215-220 | A smart-copy hit returns the reference the copy map holds for the earlier object and leaves the destination unchanged. As written it leaves the copy map unchanged too; with hits recorded it enters the object under that same reference. Otherwise, without smart copy, the result is a copy of the source node and the new destination object holds a copy of its content. The state invariant and earlier destination objects are kept. |
| Copy.Look | core/src/main/java/com/itextpdf/core/pdf/PdfWriter.java:215-216 | The lookup happens only in smart mode and only for dictionaries and streams. It hits exactly when the canonical bytes are registered with an identity, and it only extends the memo and the index. |
| Copy.LookKeeps | core/src/main/java/com/itextpdf/core/pdf/PdfWriter.java:215-220 | A smart-copy hit names an object that already has a copy, so the copy map lookup at line 218 cannot fail. |
| Copy.CopyNew | core/src/main/java/com/itextpdf/core/pdf/PdfWriter.java:222-231 | A new object for an indirect source is mapped to the returned reference, and without smart copy its destination object holds a copy of the source content. A direct source is copied in place, and without smart copy the result is a copy of it. |
| Copy.CopyIndirect | core/src/main/java/com/itextpdf/core/pdf/PdfWriter.java:222-229 | An indirect source gets a new destination object recorded in the copy map under the returned reference. Without smart copy, that object holds a copy of the source content. Earlier state is kept. |
| Copy.Reserve | core/src/main/java/com/itextpdf/core/pdf/PdfWriter.java:222-227 | The new empty object is appended and recorded in the copy map, and nothing earlier changes. |
| Copy.EmptyLike | core/src/main/java/com/itextpdf/core/pdf/PdfWriter.java:222 | The new instance has the kind of the source object and no entries, items or bytes, and refers to nothing. |
| Copy.Allocate | core/src/main/java/com/itextpdf/core/pdf/PdfWriter.java:222-229 | The indirect source gets the next destination number, which the copy map records, and earlier destination objects are kept. Without smart copy, the new destination object holds a copy of the source content. |
| Copy.CopyContent | core/src/main/java/com/itextpdf/core/pdf/PdfWriter.java:229 | A reference as content becomes null and a scalar is kept. Without smart copy, the result is a copy of the source content resolved through the final copy map. It refers only to allocated destination objects, and earlier state is kept. |
| Copy.CopyItems | core/src/main/java/com/itextpdf/core/pdf/PdfWriter.java:229 | The copy has one item per source item, all pointing at allocated destination objects. Without smart copy, each item is a copy of the source item resolved through the final copy map. |
| Copy.CopyEntries | core/src/main/java/com/itextpdf/core/pdf/PdfWriter.java:229 | The copy has one entry per source entry with the same key, all pointing at allocated destination objects. Without smart copy, each value is a copy of the source value resolved through the final copy map. |
| Copy.CopyOfGrow | core/src/main/java/com/itextpdf/core/pdf/PdfWriter.java:207-229 | A copy stays a copy when the copy map later gains entries, because existing entries are never replaced. |
| Copy.CopyTwice | core/src/main/java/com/itextpdf/core/pdf/PdfWriter.java:207-219 | Without smart copy, and in smart mode with hits recorded, copying the same indirect object again returns the first copy and changes nothing. |
| Copy.CopyFresh | core/src/main/java/com/itextpdf/core/pdf/PdfWriter.java:222-231 | Without smart copy, an uncopied indirect object gets a new destination object. |
| Copy.CopyMissed | core/src/main/java/com/itextpdf/core/pdf/PdfWriter.java:215-231 | An uncopied indirect object whose smart lookup misses gets a new destination object. |
| Copy.CycleCopied | core/src/main/java/com/itextpdf/core/pdf/PdfWriter.java:222-229 | Two source dictionaries that point at each other become two new destination dictionaries that point at each other, and copying terminates. |
| Copy.SmartCopyShares | core/src/main/java/com/itextpdf/core/pdf/PdfWriter.java:215-220 | In smart mode, a later object whose canonical bytes equal those of an earlier copied object gets that earlier copy instead of a new one. |
| Copy.SmartFirst | core/src/main/java/com/itextpdf/core/pdf/PdfWriter.java:215-228 | The first object with new content gets a new destination object and is registered in the index under its bytes. |
| Copy.SmartHitCopiedAgain | core/src/main/java/com/itextpdf/core/pdf/PdfWriter.java:207-229 | In smart mode as written, an object answered by a smart hit is not in the copy map but is in the memo. Copying it again misses, because its stored hash does not start like any registered content, so it gets a new destination object, different from the first answer. |
| Copy.SmartCopyTwiceSplits | core/src/main/java/com/itextpdf/core/pdf/PdfWriter.java:207-229 | In smart mode as written, copying two empty dictionaries 1, 2, 2 gives destination objects 0, 0 and then a new 1. |
| Copy.DistinctCopies | core/src/main/java/com/itextpdf/core/pdf/PdfWriter.java:207-228 | Without smart copy, two different indirect source objects get two different destination objects. |
| Copy.FoldedCopyKey | core/src/main/java/com/itextpdf/core/pdf/PdfWriter.java:318-328 | The key is `31 * refHash + docHash` wrapped to a Java `int`. |
| Copy.FoldedCopyShared | core/src/main/java/com/itextpdf/core/pdf/PdfWriter.java:318-328 | Two distinct hash pairs fold to the same key, so the second object is answered with the first object's copy. |

## Left out

- Byte output: `writeToBody`, `writeHeader`, encryption (`crypto`) and compression levels are not modelled. The output position is a counter that advances by one per inline object, and an object stream's contents are only counted.
- The getters and setters, and the writer's constructor, are left out because they only store fields.
- The MD5 digest of a stream's bytes is a function parameter (`Digest`), not the algorithm itself.
- Object streams are numbered from the writer's own counter, past the table. `PdfObjectStream` itself (its allocation in the document, its capacity constant of 200) is not part of this model.
- `PdfObject.flush()` (not part of this model) is taken to call `flushObject(this, canBeInObjStm)`, with streams never packed and an already-flushed object left alone.
- `newInstance`, `makeIndirect`, `releaseContent` and `PdfObjectStream.addObject` are not part of this model. A new object is an empty node of the same kind appended to the destination. Released content becomes a kind-only sentinel. Adding to an object stream only increments its size.
- Numbers are integers only (`Num(n: int)`). A real-valued `PdfNumber`, whose `toString()` at line 400 prints a decimal fraction, is not modelled, because its formatting lives in a class outside this file.
- Canonical.Decimal: takes `ByteBuffer.append(int)` (line 370, the stored hash of a memoized object) to write the decimal text of the number. `ByteBuffer` is not part of this model.
- Canonical.Text: line 400 appends the `String` from `toString()` of a number, boolean or null object. The model takes a number's text to be its decimal form (`Decimal`), because `PdfNumber` is not part of this model.
- Copy.CopyObject: the copy of the content is stated only outside smart mode. In smart mode a nested dictionary or stream may be answered by an earlier object with equal canonical bytes, and equal canonical bytes do not imply equal content. A child already in the memo is compared only through its stored 32-bit hash, so different contents can merge (`ContentIndex.MemoHashMerges`, `ContentIndex.HashCollides`). The same content compares differently once it is in the memo (`ContentIndex.MemoSplits`). Differences deeper than the depth budget of 100 are not seen at all. The model states what smart copy compares, and does not claim the copy is equivalent to the source.
- Copy.CopyTwice: in smart mode as written, copying an object twice can give two different copies (see "## Findings"), so the lemma covers the writer without smart copy and the corrected smart copy that records its hits.
- Generation numbers and free-list entries are not modelled. A slot is either empty or holds a reference.
- Flush.FlushModifiedWaitingObjects: requires every slot from 1 upward to be filled. The source reads each slot without a null check, so an empty slot there is an error, which the model does not return.
- Canonical.SerObject: the memo stores the hash of the object's own bytes. The source hashes `bb.getBuffer()`, whose length is the buffer's capacity, so unused capacity bytes may also enter the stored hash; `ByteBuffer` is not part of this model.
- Canonical.Skipped: `PdfDictionary.get` and `PdfArray.get` (lines 417, 420 and 430) are not part of this model. They are taken to dereference an indirect reference to its target, as `Objects.Deref` does. So the serializer follows references, and a `P` is skipped when its value, after dereferencing, is a dictionary or a reference. A `P` whose reference leads to a stream, an array or a scalar is kept. If `get` returned the reference itself, every referenced `P` would be skipped instead.
- Canonical.Skipped: a `P` entry whose reference target is missing makes the source dereference null and fail. The model treats such an entry as kept and serializes `$Lnull`.
- Copy.CopyContent: `copyContent` of `PdfArray`/`PdfDictionary` is not part of this model. It is taken to copy every child with `allowDuplicating` false. A reference stored as an object's own content (a reference to a reference) is copied as null.
- The copy map and the serializer memo are keyed by the pair (object number, document id), the corrected key under "## Findings". The writer's folded `int` key is modelled separately by `Copy.FoldedCopyKey`.
- Copy.State.origin is bookkeeping of the model: it records the source object each destination object was made for.
- Copy.State.recordHits selects the corrected smart copy under "## Findings", which enters an object answered by a smart hit in the copy map. The writer as written is the state with `recordHits` false.
- `kernel/src/main/java/com/itextpdf/kernel/pdf/canvas/CanvasArtifact.java` is outside the writer core and is not modelled.

## Findings

| source | as written | input that shows it | evidently intended | confidence | as-written member | corrected member |
|---|---|---|---|---|---|---|
| core/src/main/java/com/itextpdf/core/pdf/PdfWriter.java:318-328 | `copiedObjects` is keyed by `31 * ref.hashCode() + doc.hashCode()` in `int`, which is not injective | a copied reference with hash codes (h, d), then a different reference with hash codes (h + 1, d - 31): both fold to the same key, so line 211 returns the first object's copy for the second. The serializer memo is keyed by the same fold (lines 368 and 486-496) | distinct source objects get distinct copies, so the map should be keyed by (reference, document) | medium, because the hash codes come from classes outside this file; not executed | Copy.FoldedCopyShared | Copy.DistinctCopies |
| core/src/main/java/com/itextpdf/core/pdf/PdfWriter.java:214-219 | a smart-copy hit returns the earlier object's copy without entering `object` in `copiedObjects`, although the lookup has already put `object` into `serialized` | smart mode, source objects 1 and 2 both empty indirect dictionaries: copying 1, then 2, then 2 again gives destination objects 0, 0 and a new 1. The second lookup of 2 serializes it as its stored hash, which matches no registered content | copying an object again returns its first copy, as it does outside smart mode, so the hit should be entered in `copiedObjects` | medium, because the duplicate costs only output size and may have been accepted; not executed | Copy.SmartCopyTwiceSplits | Copy.CopyTwice |

=== FILE: canonical.dfy ===
/** The canonical serializer of `ByteStore` (`serObject`, `serDic`,
    `serArray`): a depth-bounded walk of an object graph producing the bytes
    that smart copy compares. Indirect objects already serialized once are
    replaced by their stored hash (the memo `serialized`), `Parent` and
    back-pointing `P` entries are skipped, and dictionary keys are visited
    in sorted order.

    The walk threads the memo through as a value: each call returns the
    bytes it appended and the memo after it. */
module Canonical {
  import opened Objects
  import opened Hashing
  import opened KeyOrder

  /** The digest of a stream's raw bytes (MD5 in the source); a parameter
      because the algorithm itself is not modelled. */
  type Digest = seq<byte> -> seq<byte>

  /** The memo: indirect object identity to the hash of its first serialization. */
  type Memo = map<Key, int>

  /** The depth budget the `ByteStore` constructors start with. */
  const StartLevel: int := 100

  /** The bytes and the memo after one step of the walk. */
  datatype Ser = Ser(out: seq<byte>, memo: Memo)

  /** A string appended to a `ByteBuffer`: one byte per character, the
      character code truncated to 8 bits. */
  function Ascii(s: string): (r: seq<byte>)
    ensures |r| == |s|
  {
    if |s| == 0 then [] else [(s[0] as int % 256) as byte] + Ascii(s[1..])
  }

  function Digits(n: nat): seq<byte>
  {
    if n < 10 then [(48 + n) as byte] else Digits(n / 10) + [(48 + n % 10) as byte]
  }

  /** Decimal text of an integer, as `ByteBuffer.append(int)` writes it. */
  function Decimal(x: int): seq<byte>
  {
    if x < 0 then Ascii("-") + Digits(-x) else Digits(x)
  }

  /** Decimal digits start with a digit. */
  lemma {:induction false} DigitsLead(n: nat)
    ensures |Digits(n)| > 0 && 48 <= Digits(n)[0] as int <= 57
  {
    if n >= 10 {
      DigitsLead(n / 10);
    }
  }

  /** The decimal text that stands for a memoized object is never empty
      and starts with a digit or a minus sign, never with the `$` that
      opens the serialization of every object written out in full. */
  lemma DecimalUntagged(x: int)
    ensures |Decimal(x)| > 0 && Decimal(x)[0] != 36
  {
    DigitsLead(if x < 0 then -x else x);
  }

  /** `toString()` of a scalar object. */
  function Text(n: Node): seq<byte>
  {
    match n
    case Bool(b) => if b then Ascii("true") else Ascii("false")
    case Null => Ascii("null")
    case Num(v) => Decimal(v)
    case Name(s) => Ascii("/") + Ascii(s)
    case Str(s) => Ascii(s)
    case Ref(k) => Decimal(k) + Ascii(" 0 R")
    case _ => []
  }

  /** The entries `serDic` leaves out: `Parent` always, and `P` when its
      value is a reference or a dictionary — links that point back up a
      tree. The value is looked at after dereferencing, as `dic.get` does. */
  function Skipped(d: Doc, e: Entry): (r: bool)
    ensures e.key == "Parent" ==> r
    ensures e.key != "Parent" && e.key != "P" ==> !r
    ensures e.key == "P" && !e.value.Ref? ==> (r <==> e.value.Dict?)
    ensures e.key == "P" && Deref(d, e.value).NullObj? ==> !r
    ensures e.key == "P" && e.value.Ref? && Deref(d, e.value).Obj? ==>
              (r <==> Deref(d, e.value).node.Dict? || Deref(d, e.value).node.Ref?)
  {
    || e.key == "Parent"
    || (e.key == "P" && match Deref(d, e.value)
                        case NullObj => false
                        case Obj(n, _) => n.Ref? || n.Dict?)
  }

  /** `serObject(obj, level, bb, serialized)`. */
  function SerObject(d: Doc, o: Obj, level: int, memo: Memo, md5: Digest): (r: Ser)
    ensures level <= 0 ==> r == Ser([], memo)
    ensures level > 0 && o.NullObj? ==> r == Ser(Ascii("$Lnull"), memo)
    ensures level > 0 && o.Obj? && o.handle.Some? && o.handle.value in memo ==>
              r == Ser(Decimal(memo[o.handle.value]), memo)
    ensures Extends(memo, r.memo)
    ensures level > 0 && o.Obj? && o.handle.Some? ==> o.handle.value in r.memo
    decreases level, 2, 0
  {
    if level <= 0 then Ser([], memo)
    else
      match o
      case NullObj => Ser(Ascii("$Lnull"), memo)
      case Obj(n, h) =>
        if h.Some? && h.value in memo then Ser(Decimal(memo[h.value]), memo)
        else
          var body :=
            match n
            case Stream(es, bytes) =>
              var dic := SerDic(d, es, level - 1, memo, md5);
              Ser(Ascii("$B") + dic.out + md5(bytes), dic.memo)
            case Dict(es) => SerDic(d, es, level - 1, memo, md5)
            case Arr(items) => SerArray(d, items, level - 1, memo, md5)
            case Str(_) => Ser(Ascii("$S") + Text(n), memo)
            case Name(_) => Ser(Ascii("$N") + Text(n), memo)
            case _ => Ser(Ascii("$L") + Text(n), memo);
          if h.Some? && h.value !in body.memo then Ser(body.out, body.memo[h.value := Hash(body.out)])
          else body
  }

  /** `serDic`: `$D`, then (budget permitting) the entries in key order. */
  function SerDic(d: Doc, es: seq<Entry>, level: int, memo: Memo, md5: Digest): (r: Ser)
    ensures Extends(memo, r.memo)
    ensures |r.out| >= 2 && r.out[..2] == Ascii("$D")
    decreases level + 1, 1, 0
  {
    if level <= 0 then Ser(Ascii("$D"), memo)
    else
      var rest := SerEntries(d, SortEntries(es), level, memo, md5);
      Ser(Ascii("$D") + rest.out, rest.memo)
  }

  /** The loop of `serDic` over the sorted entries: each kept entry
      contributes its key, then its dereferenced value. */
  function SerEntries(d: Doc, s: seq<Entry>, level: int, memo: Memo, md5: Digest): (r: Ser)
    requires level > 0
    ensures Extends(memo, r.memo)
    decreases level + 1, 0, |s|
  {
    if |s| == 0 then Ser([], memo)
    else if Skipped(d, s[0]) then SerEntries(d, s[1..], level, memo, md5)
    else
      var k := SerObject(d, Obj(Name(s[0].key), None), level, memo, md5);
      var v := SerObject(d, Deref(d, s[0].value), level, k.memo, md5);
      var rest := SerEntries(d, s[1..], level, v.memo, md5);
      Ser(k.out + v.out + rest.out, rest.memo)
  }

  /** `serArray`: `$A`, then (budget permitting) every item in order. */
  function SerArray(d: Doc, items: seq<Node>, level: int, memo: Memo, md5: Digest): (r: Ser)
    ensures Extends(memo, r.memo)
    ensures |r.out| >= 2 && r.out[..2] == Ascii("$A")
    decreases level + 1, 1, 0
  {
    if level <= 0 then Ser(Ascii("$A"), memo)
    else
      var rest := SerItems(d, items, level, memo, md5);
      Ser(Ascii("$A") + rest.out, rest.memo)
  }

  function SerItems(d: Doc, items: seq<Node>, level: int, memo: Memo, md5: Digest): (r: Ser)
    requires level > 0
    ensures Extends(memo, r.memo)
    decreases level + 1, 0, |items|
  {
    if |items| == 0 then Ser([], memo)
    else
      var x := SerObject(d, Deref(d, items[0]), level, memo, md5);
      var rest := SerItems(d, items[1..], level, x.memo, md5);
      Ser(x.out + rest.out, rest.memo)
  }

  /** A memo entry, once written, is never removed or overwritten. */
  predicate Extends(m: Memo, m': Memo)
  {
    forall k :: k in m ==> k in m' && m'[k] == m[k]
  }

  // ---------------------------------------------------------------------
  // Properties of the dictionary serialization
  // ---------------------------------------------------------------------

  /** The entries `serDic` keeps, in their order. */
  function Kept(d: Doc, s: seq<Entry>): (r: seq<Entry>)
    ensures |r| <= |s|
  {
    if |s| == 0 then []
    else if Skipped(d, s[0]) then Kept(d, s[1..])
    else [s[0]] + Kept(d, s[1..])
  }

  lemma {:induction false} KeptMembers(d: Doc, s: seq<Entry>)
    ensures forall x :: x in Kept(d, s) ==> x in s && !Skipped(d, x)
  {
    if |s| > 0 {
      KeptMembers(d, s[1..]);
    }
  }

  /** How often an entry occurs among the kept entries depends only on how
      often it occurs at all. */
  lemma {:induction false} KeptCount(d: Doc, s: seq<Entry>, x: Entry)
    ensures multiset(Kept(d, s))[x] == if Skipped(d, x) then 0 else multiset(s)[x]
  {
    if |s| > 0 {
      KeptCount(d, s[1..], x);
      assert s == [s[0]] + s[1..];
    }
  }

  lemma KeptPermutation(d: Doc, s: seq<Entry>, t: seq<Entry>)
    requires multiset(s) == multiset(t)
    ensures multiset(Kept(d, s)) == multiset(Kept(d, t))
  {
    forall x ensures multiset(Kept(d, s))[x] == multiset(Kept(d, t))[x] {
      KeptCount(d, s, x);
      KeptCount(d, t, x);
    }
  }

  lemma {:induction false} KeptSorted(d: Doc, s: seq<Entry>)
    requires SortedByKey(s)
    ensures SortedByKey(Kept(d, s))
  {
    if |s| > 0 {
      KeptSorted(d, s[1..]);
      KeptMembers(d, s[1..]);
      forall x | x in Kept(d, s[1..]) ensures KeyLe(s[0].key, x.key) {
        var m :| 0 <= m < |s[1..]| && s[1..][m] == x;
        assert s[m + 1] == x;
      }
    }
  }

  lemma {:induction false} KeptDistinct(d: Doc, s: seq<Entry>)
    requires DistinctKeys(s)
    ensures DistinctKeys(Kept(d, s))
  {
    if |s| > 0 {
      KeptDistinct(d, s[1..]);
      KeptMembers(d, s[1..]);
      forall x | x in Kept(d, s[1..]) ensures x.key != s[0].key {
        var m :| 0 <= m < |s[1..]| && s[1..][m] == x;
        assert s[m + 1] == x;
      }
    }
  }

  /** Skipping entries inside the loop is serializing only the kept ones. */
  lemma {:induction false} SerEntriesKept(d: Doc, s: seq<Entry>, level: int, memo: Memo, md5: Digest)
    requires level > 0
    ensures SerEntries(d, s, level, memo, md5) == SerEntries(d, Kept(d, s), level, memo, md5)
    decreases |s|
  {
    if |s| > 0 {
      if Skipped(d, s[0]) {
        SerEntriesKept(d, s[1..], level, memo, md5);
      } else {
        var k := SerObject(d, Obj(Name(s[0].key), None), level, memo, md5);
        var v := SerObject(d, Deref(d, s[0].value), level, k.memo, md5);
        SerEntriesKept(d, s[1..], level, v.memo, md5);
        assert Kept(d, s)[1..] == Kept(d, s[1..]);
      }
    }
  }

  /** A dictionary's serialization does not depend on the order its entries
      were inserted in. */
  lemma SerDicOrderIndependent(d: Doc, e1: seq<Entry>, e2: seq<Entry>, level: int, memo: Memo, md5: Digest)
    requires DistinctKeys(e1) && multiset(e1) == multiset(e2)
    ensures SerDic(d, e1, level, memo, md5) == SerDic(d, e2, level, memo, md5)
  {
    SortForgetsOrder(e1, e2);
  }

  /** Two dictionaries with the same kept entries serialize identically,
      whatever their `Parent` entries and back-pointing `P` entries hold,
      and in whatever order the entries were inserted. */
  lemma SerDicIgnoresSkipped(d: Doc, e1: seq<Entry>, e2: seq<Entry>, level: int, memo: Memo, md5: Digest)
    requires DistinctKeys(e1) && DistinctKeys(e2)
    requires forall x :: !Skipped(d, x) ==> (x in e1 <==> x in e2)
    ensures SerDic(d, e1, level, memo, md5) == SerDic(d, e2, level, memo, md5)
  {
    if level > 0 {
      var s1, s2 := SortEntries(e1), SortEntries(e2);
      SortEntriesSorted(e1);
      SortEntriesSorted(e2);
      KeptSame(d, e1, e2);
      DistinctKeysPermutation(e1, s1);
      KeptSorted(d, s1);
      KeptSorted(d, s2);
      KeptDistinct(d, s1);
      KeptPermutation(d, e1, s1);
      KeptPermutation(d, e2, s2);
      SortedUnique(Kept(d, s1), Kept(d, s2));
      SerEntriesKept(d, s1, level, memo, md5);
      SerEntriesKept(d, s2, level, memo, md5);
    }
  }

  /** With distinct keys every entry occurs at most once, so sharing the
      kept entries means sharing them as multisets. */
  lemma KeptSame(d: Doc, e1: seq<Entry>, e2: seq<Entry>)
    requires DistinctKeys(e1) && DistinctKeys(e2)
    requires forall x :: !Skipped(d, x) ==> (x in e1 <==> x in e2)
    ensures multiset(Kept(d, e1)) == multiset(Kept(d, e2))
  {
    forall x ensures multiset(Kept(d, e1))[x] == multiset(Kept(d, e2))[x] {
      KeptCount(d, e1, x);
      KeptCount(d, e2, x);
      if !Skipped(d, x) && x in e1 {
        var a :| 0 <= a < |e1| && e1[a] == x;
        var b :| 0 <= b < |e2| && e2[b] == x;
        DistinctCount(e1, a);
        DistinctCount(e2, b);
      }
    }
  }

  /** Changing the target of a dictionary's `Parent` entry leaves its
      serialization unchanged. */
  lemma ParentLinkIgnored(d: Doc, es: seq<Entry>, i: nat, v: Node, level: int, memo: Memo, md5: Digest)
    requires DistinctKeys(es) && i < |es| && es[i].key == "Parent"
    ensures SerDic(d, es[i := Entry("Parent", v)], level, memo, md5) == SerDic(d, es, level, memo, md5)
  {
    var es' := es[i := Entry("Parent", v)];
    assert DistinctKeys(es');
    forall x | !Skipped(d, x) ensures x in es' <==> x in es {
      if x in es' {
        var j :| 0 <= j < |es'| && es'[j] == x;
        assert j != i && es[j] == x;
      }
      if x in es {
        var j :| 0 <= j < |es| && es[j] == x;
        assert j != i && es'[j] == x;
      }
    }
    SerDicIgnoresSkipped(d, es', es, level, memo, md5);
  }
}

=== FILE: contentindex.dfy ===
/** `ByteStore` (the canonical bytes of a dictionary or stream with their
    hash) and the smart-copy index `streamMap` that remembers, for each
    canonical content, the indirect object first copied with it
    (`smartCopyObject`). */
module ContentIndex {
  import opened Objects
  import opened Hashing
  import opened Canonical

  /** The canonical bytes and their hash, fixed at construction. */
  datatype ByteStore = ByteStore(b: seq<byte>, hash: int)

  predicate WellFormed(x: ByteStore)
  {
    x.hash == Hash(x.b)
  }

  /** The constructors `ByteStore(PdfStream, serialized)` and
      `ByteStore(PdfDictionary, serialized)`: serialize with the full depth
      budget, then hash the bytes. */
  function MakeByteStore(d: Doc, o: Obj, memo: Memo, md5: Digest): (r: (ByteStore, Memo))
    ensures WellFormed(r.0)
    ensures Extends(memo, r.1)
  {
    var s := SerObject(d, o, StartLevel, memo, md5);
    (ByteStore(s.out, Hash(s.out)), s.memo)
  }

  /** `ByteStore.hashCode`. */
  function HashCode(x: ByteStore): (r: int)
    ensures WellFormed(x) ==> r == Hash(x.b) && IsInt32(r)
  {
    x.hash
  }

  /** `ByteStore.equals`: hashes first, then the bytes. */
  function Equals(x: ByteStore, y: ByteStore): (r: bool)
    ensures r ==> x.b == y.b
  {
    if HashCode(x) != HashCode(y) then false else x.b == y.b
  }

  /** For stores built by the constructors, equality is exactly equality of
      the bytes; the hash comparison only rejects early, and never wrongly. */
  lemma EqualsIsByteEquality(x: ByteStore, y: ByteStore)
    requires WellFormed(x) && WellFormed(y)
    ensures Equals(x, y) <==> x.b == y.b
    ensures HashCode(x) != HashCode(y) ==> x.b != y.b
  {
  }

  /** The `equals`/`hashCode` contract the hash map relies on. */
  lemma EqualsAgreesWithHashCode(x: ByteStore, y: ByteStore)
    ensures Equals(x, y) ==> HashCode(x) == HashCode(y)
  {
  }

  /** `streamMap`, keyed by content: since equality of well-formed stores is
      byte equality, the map is keyed by the bytes themselves. A `None`
      value is Java's null, stored when the object was direct. */
  type Index = map<seq<byte>, Option<Key>>

  /** The result of `smartCopyObject`: the identity of an earlier object with
      the same content (Java returns that object or its reference), the memo
      and the index afterwards. */
  datatype Lookup = Lookup(found: Option<Key>, memo: Memo, index: Index)

  /** The object kinds smart copy looks at. */
  predicate Hashable(o: Obj)
  {
    o.Obj? && (o.node.Stream? || o.node.Dict?)
  }

  /** The canonical bytes smart copy computes for `o` under memo `memo`. */
  function Canon(d: Doc, o: Obj, memo: Memo, md5: Digest): seq<byte>
  {
    MakeByteStore(d, o, memo, md5).0.b
  }

  /** A registered (non-null) identity is kept for good. */
  predicate IndexExtends(a: Index, b: Index)
  {
    forall c :: c in a && a[c].Some? ==> c in b && b[c] == a[c]
  }

  /** `smartCopyObject`: for a dictionary or stream, look its canonical
      content up; on a hit return the registered identity, otherwise
      register this object's identity (null for a direct object) under that
      content. Other kinds are neither looked up nor registered. */
  function SmartCopyObject(d: Doc, o: Obj, memo: Memo, index: Index, md5: Digest): (r: Lookup)
    ensures !Hashable(o) ==> r == Lookup(None, memo, index)
    ensures r.found.Some? ==> r.index == index
    ensures Hashable(o) ==>
              var c := Canon(d, o, memo, md5);
              && (r.found.Some? <==> c in index && index[c].Some?)
              && (r.found.Some? ==> r.found == index[c])
    ensures Hashable(o) && r.found.None? ==> r.index == index[Canon(d, o, memo, md5) := o.handle]
    ensures Hashable(o) ==> r.memo == MakeByteStore(d, o, memo, md5).1
    ensures IndexExtends(index, r.index)
    ensures Extends(memo, r.memo)
  {
    if Hashable(o) then
      var (key, memo') := MakeByteStore(d, o, memo, md5);
      if key.b in index && index[key.b].Some? then Lookup(index[key.b], memo', index)
      else Lookup(None, memo', index[key.b := o.handle])
    else
      Lookup(None, memo, index)
  }

  /** First sighting, then a byte-equal one: an indirect dictionary or
      stream seen for the first time is registered (and nothing is
      returned); any later object whose canonical bytes are equal gets that
      object's identity back. */
  lemma RegisterThenFind(d1: Doc, o1: Obj, d2: Doc, o2: Obj, memo: Memo, index: Index, md5: Digest)
    requires Hashable(o1) && o1.handle.Some? && Hashable(o2)
    requires var c := Canon(d1, o1, memo, md5); !(c in index && index[c].Some?)
    ensures SmartCopyObject(d1, o1, memo, index, md5).found.None?
    ensures var first := SmartCopyObject(d1, o1, memo, index, md5);
            Canon(d2, o2, first.memo, md5) == Canon(d1, o1, memo, md5) ==>
              SmartCopyObject(d2, o2, first.memo, first.index, md5).found == o1.handle
  {
    var first := SmartCopyObject(d1, o1, memo, index, md5);
    var c := Canon(d1, o1, memo, md5);
    assert first.index == index[c := o1.handle];
  }

  // ---------------------------------------------------------------------
  // What the memo does to the comparison
  // ---------------------------------------------------------------------

  /** The canonical bytes of a one-entry dictionary not itself in the memo:
      `$D`, then what the loop of `serDic` writes for the entry. */
  lemma OneEntryCanon(d: Doc, e: Entry, h: Option<Key>, memo: Memo, md5: Digest)
    requires !(h.Some? && h.value in memo)
    ensures Canon(d, Obj(Dict([e]), h), memo, md5)
         == Ascii("$D") + SerEntries(d, [e], StartLevel - 1, memo, md5).out
  {
    FreshOut(d, Obj(Dict([e]), h), memo, md5);
    assert KeyOrder.SortEntries([e]) == [e];
  }

  /** The one-entry loop of `serDic` on an entry whose value refers to a
      present object in the memo. */
  lemma EntryRefOut(d: Doc, e: Entry, a: nat, level: int, memo: Memo, md5: Digest)
    requires level > 0 && e.value == Ref(a) && e.key != "Parent" && e.key != "P"
    requires a < |d.objects| && d.objects[a].Some? && Key(a, d.id) in memo
    ensures SerEntries(d, [e], level, memo, md5).out == Ascii("$N") + Text(Name(e.key)) + Decimal(memo[Key(a, d.id)])
  {
    assert !Skipped(d, e);
    assert SerObject(d, Obj(Name(e.key), None), level, memo, md5) == Ser(Ascii("$N") + Text(Name(e.key)), memo);
    assert Deref(d, Ref(a)) == Obj(d.objects[a].value, Some(Key(a, d.id)));
    assert SerEntries(d, [e][1..], level, memo, md5) == Ser([], memo);
    assert Ascii("$N") + Text(Name(e.key)) + Decimal(memo[Key(a, d.id)]) + [] == Ascii("$N") + Text(Name(e.key)) + Decimal(memo[Key(a, d.id)]);
  }

  /** A child already in the memo is compared only through its stored
      32-bit hash: two dictionaries with the same key, referring to two
      objects whose stored hashes are equal, have the same canonical bytes
      whatever those objects hold, so smart copy answers the second with the
      first. */
  lemma MemoHashMerges(d: Doc, k: string, a: nat, b: nat, hp: Option<Key>, hq: Option<Key>, memo: Memo, md5: Digest)
    requires a < |d.objects| && d.objects[a].Some? && b < |d.objects| && d.objects[b].Some?
    requires Key(a, d.id) in memo && Key(b, d.id) in memo && memo[Key(a, d.id)] == memo[Key(b, d.id)]
    requires k != "Parent" && k != "P"
    requires !(hp.Some? && hp.value in memo) && !(hq.Some? && hq.value in memo)
    ensures Canon(d, Obj(Dict([Entry(k, Ref(a))]), hp), memo, md5)
         == Canon(d, Obj(Dict([Entry(k, Ref(b))]), hq), memo, md5)
  {
    OneEntryCanon(d, Entry(k, Ref(a)), hp, memo, md5);
    OneEntryCanon(d, Entry(k, Ref(b)), hq, memo, md5);
    EntryRefOut(d, Entry(k, Ref(a)), a, StartLevel - 1, memo, md5);
    EntryRefOut(d, Entry(k, Ref(b)), b, StartLevel - 1, memo, md5);
  }

  /** Different bytes, equal hashes: `Aa` and `BB`. */
  lemma HashCollides()
    ensures Ascii("Aa") != Ascii("BB") && Hash(Ascii("Aa")) == Hash(Ascii("BB"))
  {
    assert Ascii("Aa") == [65, 97] && Ascii("BB") == [66, 66];
    assert Poly([65, 97]) == 65 * 31 + 97;
    assert Poly([66, 66]) == 66 * 31 + 66;
  }

  /** A dictionary or stream not in the memo is written out in full, and
      its text starts with the `$` of its tag. */
  lemma FreshTagged(d: Doc, o: Obj, memo: Memo, md5: Digest)
    requires Hashable(o) && !(o.handle.Some? && o.handle.value in memo)
    ensures var s := SerObject(d, o, StartLevel, memo, md5); |s.out| > 0 && s.out[0] == 36
  {
    FreshOut(d, o, memo, md5);
    if o.node.Dict? {
      var t := SerDic(d, o.node.entries, StartLevel - 1, memo, md5).out;
      assert t[..2] == Ascii("$D");
    } else {
      assert (Ascii("$B") + SerDic(d, o.node.dict, StartLevel - 1, memo, md5).out + md5(o.node.bytes))[0] == 36;
    }
  }

  /** The text of a dictionary or stream not in the memo is its body. */
  lemma FreshOut(d: Doc, o: Obj, memo: Memo, md5: Digest)
    requires Hashable(o) && !(o.handle.Some? && o.handle.value in memo)
    ensures var out := SerObject(d, o, StartLevel, memo, md5).out;
            && (o.node.Dict? ==> out == SerDic(d, o.node.entries, StartLevel - 1, memo, md5).out)
            && (o.node.Stream? ==>
                  out == Ascii("$B") + SerDic(d, o.node.dict, StartLevel - 1, memo, md5).out + md5(o.node.bytes))
  {
  }

  /** The same content compares differently once it is in the memo: an
      indirect dictionary or stream written out in full starts with `$`,
      while its stored hash in decimal does not, so after its first lookup
      the object no longer matches its own earlier canonical bytes (and a
      parent referring to it no longer matches a parent serialized before). */
  lemma MemoSplits(d: Doc, o: Obj, memo: Memo, md5: Digest)
    requires Hashable(o) && o.handle.Some? && o.handle.value !in memo
    ensures var first := MakeByteStore(d, o, memo, md5);
            Canon(d, o, first.1, md5) != first.0.b
  {
    var s := SerObject(d, o, StartLevel, memo, md5);
    FreshTagged(d, o, memo, md5);
    var h := o.handle.value;
    assert SerObject(d, o, StartLevel, s.memo, md5).out == Decimal(s.memo[h]);
    DecimalUntagged(s.memo[h]);
  }
}

=== FILE: copy.dfy ===
/** Cross-document copy (`copyObject`): copies an object of a source
    document into the destination document, reusing an earlier copy of the
    same source object (the copy map `copiedObjects`) and, in smart mode, an
    earlier copy of an object with the same canonical content.

    The destination objects are a sequence indexed by object number; a
    copied indirect object is returned as `Ref(number)`. The copy map is
    keyed by the pair (source object number, source document id); the
    writer folds that pair into one `int`, which can collide, and the model
    keeps the pair instead. */
module Copy {
  import opened Objects
  import opened Hashing
  import opened Canonical
  import opened ContentIndex

  /** The writer state the copy engine uses: the destination's objects, the
      copy map, the smart-copy index and serializer memo, and the smart-copy
      switch. `origin` records, for each destination object, the source
      object it was made for; the writer does not store it (each new object
      is a fresh Java object), the model keeps it to state that copies are
      never shared. `recordHits` selects the corrected smart copy of the
      findings in the README, which enters an object answered by a smart
      hit in the copy map; the writer as written does not. */
  datatype State = State(
    dst: seq<Node>,
    origin: seq<Key>,
    copied: map<Key, nat>,
    index: Index,
    memo: Memo,
    smart: bool,
    recordHits: bool)

  datatype Copied = Copied(node: Node, st: State)

  /** Every reference inside `n` points below `bound`. */
  predicate RefsBelow(n: Node, bound: nat)
  {
    match n
    case Ref(k) => k < bound
    case Arr(items) => forall i :: 0 <= i < |items| ==> RefsBelow(items[i], bound)
    case Dict(es) => forall i :: 0 <= i < |es| ==> RefsBelow(es[i].value, bound)
    case Stream(es, _) => forall i :: 0 <= i < |es| ==> RefsBelow(es[i].value, bound)
    case _ => true
  }

  lemma {:induction false} RefsBelowGrow(n: Node, b: nat, b': nat)
    requires RefsBelow(n, b) && b <= b'
    ensures RefsBelow(n, b')
  {
    match n
    case Arr(items) =>
      forall i | 0 <= i < |items| ensures RefsBelow(items[i], b') {
        RefsBelowGrow(items[i], b, b');
      }
    case Dict(es) =>
      forall i | 0 <= i < |es| ensures RefsBelow(es[i].value, b') {
        RefsBelowGrow(es[i].value, b, b');
      }
    case Stream(es, _) =>
      forall i | 0 <= i < |es| ensures RefsBelow(es[i].value, b') {
        RefsBelowGrow(es[i].value, b, b');
      }
    case _ =>
  }

  /** The state invariant: the copy map and every destination reference
      point at allocated destination objects, no two source objects share a
      copy (unless smart hits are recorded, which share on purpose), and
      every identity registered in the smart-copy index has a copy. */
  predicate Valid(st: State)
  {
    && |st.origin| == |st.dst|
    && (forall k :: k in st.copied ==> st.copied[k] < |st.dst| && ((st.smart && st.recordHits) || st.origin[st.copied[k]] == k))
    && (forall i :: 0 <= i < |st.dst| ==> RefsBelow(st.dst[i], |st.dst|))
    && IndexCopied(st.index, st.copied)
  }

  /** Every identity registered in the index has a copy. */
  predicate IndexCopied(index: Index, copied: map<Key, nat>)
  {
    forall c :: c in index && index[c].Some? ==> index[c].value in copied
  }

  /** What one copy keeps: destination objects already allocated are never
      touched, copy-map entries are kept (except possibly the entry of the
      copied object itself when duplicates are allowed), the index and memo
      only grow. */
  predicate Grows(st: State, st': State, except: Option<Key>)
  {
    && |st.dst| <= |st'.dst|
    && st'.dst[..|st.dst|] == st.dst
    && st.copied.Keys <= st'.copied.Keys
    && (forall k :: k in st.copied && Some(k) != except ==> st'.copied[k] == st.copied[k])
    && IndexExtends(st.index, st'.index)
    && Extends(st.memo, st'.memo)
    && st'.smart == st.smart && st'.recordHits == st.recordHits
  }

  /** Source objects of `src` that have no copy yet: the termination measure. */
  function Unmapped(src: Doc, copied: map<Key, nat>): nat
  {
    |set j | 0 <= j < |src.objects| && Key(j, src.id) !in copied|
  }

  lemma UnmappedShrinks(src: Doc, c: map<Key, nat>, c': map<Key, nat>, j: nat)
    requires c.Keys <= c'.Keys
    ensures Unmapped(src, c') <= Unmapped(src, c)
    ensures j < |src.objects| && Key(j, src.id) !in c && Key(j, src.id) in c' ==> Unmapped(src, c') < Unmapped(src, c)
  {
    var a := set j | 0 <= j < |src.objects| && Key(j, src.id) !in c;
    var b := set j | 0 <= j < |src.objects| && Key(j, src.id) !in c';
    assert b <= a;
    assert a == b + (a - b);
    assert |a| == |b| + |a - b|;
    if j < |src.objects| && Key(j, src.id) !in c && Key(j, src.id) in c' {
      assert j in a - b;
    }
  }

  /** `m` is a copy of the source node `n` when every reference in it is
      resolved through the copy map `copied`: scalars are kept, a reference
      to a present source object becomes a reference to that object's copy
      and one to a missing object becomes null, arrays are copied item by
      item, dictionaries and streams entry by entry under the same keys, and
      a stream keeps its bytes. */
  predicate CopyOf(src: Doc, n: Node, m: Node, copied: map<Key, nat>)
    decreases n
  {
    match n
    case Ref(k) =>
      if Deref(src, n).NullObj? then m == Null
      else Key(k, src.id) in copied && m == Ref(copied[Key(k, src.id)])
    case Arr(items) =>
      && m.Arr? && |m.items| == |items|
      && forall i :: 0 <= i < |items| ==> CopyOf(src, items[i], m.items[i], copied)
    case Dict(es) =>
      && m.Dict? && |m.entries| == |es|
      && forall i :: 0 <= i < |es| ==> m.entries[i].key == es[i].key && CopyOf(src, es[i].value, m.entries[i].value, copied)
    case Stream(es, bytes) =>
      && m.Stream? && m.bytes == bytes && |m.dict| == |es|
      && forall i :: 0 <= i < |es| ==> m.dict[i].key == es[i].key && CopyOf(src, es[i].value, m.dict[i].value, copied)
    case _ => m == n
  }

  /** The content of a new destination object made for source content `n`:
      a reference stored as an object's own content is not resolved and
      becomes null; anything else is a `CopyOf` it. */
  predicate ContentCopy(src: Doc, n: Node, m: Node, copied: map<Key, nat>)
  {
    if n.Ref? then m == Null else CopyOf(src, n, m, copied)
  }

  /** Copy-map entries are kept with their values. */
  predicate MapKept(c: map<Key, nat>, c': map<Key, nat>)
  {
    forall k :: k in c ==> k in c' && c'[k] == c[k]
  }

  /** A copy stays a copy when the copy map only gains entries. */
  lemma {:induction false} CopyOfGrow(src: Doc, n: Node, m: Node, c: map<Key, nat>, c': map<Key, nat>)
    requires CopyOf(src, n, m, c) && MapKept(c, c')
    ensures CopyOf(src, n, m, c')
    decreases n
  {
    match n
    case Arr(items) =>
      forall i | 0 <= i < |items| ensures CopyOf(src, items[i], m.items[i], c') {
        CopyOfGrow(src, items[i], m.items[i], c, c');
      }
    case Dict(es) =>
      forall i | 0 <= i < |es| ensures CopyOf(src, es[i].value, m.entries[i].value, c') {
        CopyOfGrow(src, es[i].value, m.entries[i].value, c, c');
      }
    case Stream(es, _) =>
      forall i | 0 <= i < |es| ensures CopyOf(src, es[i].value, m.dict[i].value, c') {
        CopyOfGrow(src, es[i].value, m.dict[i].value, c, c');
      }
    case _ =>
  }

  /** The empty object `newInstance` allocates: an object of the same kind
      with no children and no bytes (a reference becomes null). */
  function EmptyLike(n: Node): (r: Node)
    ensures !n.Ref? ==> KindOf(r) == KindOf(n)
    ensures n.Ref? ==> r == Null
    ensures EntriesOf(r) == [] && (r.Arr? ==> r.items == []) && (r.Stream? ==> r.bytes == [])
    ensures RefsBelow(r, 0)
  {
    match n
    case Arr(_) => Arr([])
    case Dict(_) => Dict([])
    case Stream(_, _) => Stream([], [])
    case Ref(_) => Null
    case _ => n
  }

  /** The object `copyObject` actually copies: a reference is replaced by
      its target, and a missing target by the null object. */
  function Source(src: Doc, n: Node): (o: Obj)
    ensures o.Obj?
    ensures Deref(src, n).Obj? ==> o == Deref(src, n)
    ensures Deref(src, n).NullObj? ==> o == Obj(Null, None)
    ensures !n.Ref? ==> o == Obj(n, None)
  {
    match Deref(src, n)
    case NullObj => Obj(Null, None)
    case Obj(m, h) => Obj(m, h)
  }

  /** Allocation of a destination object for source object `h`: an empty
      object of the same kind is appended and the copy map records it before
      the content is copied, so that cycles back to `h` find it. `index` is
      the smart-copy index after the lookup, which may already name `h`. */
  function Reserve(st: State, h: Key, n: Node, index: Index): (r: State)
    requires Valid(st) && IndexCopied(index, st.copied[h := |st.dst|])
    ensures Valid(r) && |r.dst| == |st.dst| + 1 && r.dst[..|st.dst|] == st.dst
    ensures r.copied == st.copied[h := |st.dst|]
    ensures r.index == index && r.memo == st.memo && r.smart == st.smart && r.recordHits == st.recordHits
  {
    var r := st.(dst := st.dst + [EmptyLike(n)], origin := st.origin + [h], copied := st.copied[h := |st.dst|], index := index);
    assert Valid(r) by {
      forall i | 0 <= i < |r.dst| ensures RefsBelow(r.dst[i], |r.dst|) {
        if i < |st.dst| { RefsBelowGrow(st.dst[i], |st.dst|, |r.dst|); }
      }
    }
    r
  }

  /** Storing the copied content `node` into the reserved slot `num` of the
      state `st` reached from `st2` keeps the invariant, and what `st0` had
      before the reservation. */
  lemma FillKeeps(st0: State, st2: State, st: State, h: Key, node: Node)
    requires Valid(st0) && |st2.dst| == |st0.dst| + 1 && st2.dst[..|st0.dst|] == st0.dst
    requires st2.copied == st0.copied[h := |st0.dst|]
    requires IndexExtends(st0.index, st2.index) && st2.memo == st0.memo
    requires st2.smart == st0.smart && st2.recordHits == st0.recordHits
    requires Valid(st) && Grows(st2, st, None)
    requires RefsBelow(node, |st.dst|)
    ensures var st3 := st.(dst := st.dst[|st0.dst| := node]);
            Valid(st3) && h in st3.copied && st3.copied[h] == |st0.dst| && Grows(st0, st3, Some(h))
  {
    var num := |st0.dst|;
    var st3 := st.(dst := st.dst[num := node]);
    assert st.dst[..|st2.dst|] == st2.dst;
    assert st3.dst[..num] == st.dst[..num];
    assert st.dst[..num] == st.dst[..|st2.dst|][..num];
  }

  /** `copyObject(object, document, allowDuplicating)`: an object already
      copied (and not to be duplicated) is answered from the copy map;
      anything else goes on to `CopyMiss`. */
  function CopyObject(src: Doc, n: Node, allowDup: bool, st: State, md5: Digest): (r: Copied)
    requires Valid(st)
    ensures Valid(r.st) && RefsBelow(r.node, |r.st.dst|)
    ensures Grows(st, r.st, if allowDup then Source(src, n).handle else None)
    ensures var h := Source(src, n).handle;
            !allowDup && h.Some? && h.value in st.copied ==> r == Copied(Ref(st.copied[h.value]), st)
    ensures var h := Source(src, n).handle;
            h.Some? && (!st.smart || st.recordHits) ==> h.value in r.st.copied && r.node == Ref(r.st.copied[h.value])
    ensures Deref(src, n).NullObj? ==> r == Copied(Null, st)
    ensures !st.smart ==> CopyOf(src, n, r.node, r.st.copied)
    ensures var h := Source(src, n).handle;
            !st.smart && h.Some? && (allowDup || h.value !in st.copied) ==>
              && h.value in r.st.copied && r.st.copied[h.value] < |r.st.dst|
              && ContentCopy(src, Source(src, n).node, r.st.dst[r.st.copied[h.value]], r.st.copied)
    decreases Unmapped(src, st.copied), if allowDup then 1 else 0, n, 3
  {
    var h := Source(src, n).handle;
    if !allowDup && h.Some? && h.value in st.copied then
      Copied(Ref(st.copied[h.value]), st)
    else
      CopyMiss(src, n, allowDup, st, md5)
  }

  /** The smart-copy lookup `copyObject` makes (none outside smart mode). */
  function Look(src: Doc, o: Obj, st: State, md5: Digest): (r: Lookup)
    ensures !(st.smart && Hashable(o)) ==> r.found.None? && r.memo == st.memo && r.index == st.index
    ensures st.smart && Hashable(o) ==>
              var c := Canon(src, o, st.memo, md5);
              (r.found.Some? <==> c in st.index && st.index[c].Some?)
    ensures IndexExtends(st.index, r.index) && Extends(st.memo, r.memo)
  {
    if st.smart then SmartCopyObject(src, o, st.memo, st.index, md5) else Lookup(None, st.memo, st.index)
  }

  /** What the lookup leaves true: an identity it returns has a copy, and
      the index it leaves names only copied objects, plus `o` itself when
      `o` is indirect and about to be copied. */
  lemma LookKeeps(src: Doc, o: Obj, st: State, md5: Digest)
    requires Valid(st)
    ensures var look := Look(src, o, st, md5);
            && IndexExtends(st.index, look.index) && Extends(st.memo, look.memo)
            && (look.found.Some? ==> look.found.value in st.copied && look.index == st.index)
            && (look.found.None? && o.Obj? && o.handle.Some? ==>
                  IndexCopied(look.index, st.copied[o.handle.value := |st.dst|]))
    ensures var look := Look(src, o, st, md5);
            var st' := st.(memo := look.memo, index := look.index);
            (look.found.Some? || (o.Obj? && o.handle.None?)) ==> Valid(st') && Grows(st, st', None)
  {
  }

  /** The rest of `copyObject`: in smart mode an object whose canonical
      content was seen before is answered with that earlier object's copy;
      anything else goes on to `CopyNew`. */
  function CopyMiss(src: Doc, n: Node, allowDup: bool, st: State, md5: Digest): (r: Copied)
    requires Valid(st)
    requires var h := Source(src, n).handle; !(!allowDup && h.Some? && h.value in st.copied)
    ensures Valid(r.st) && RefsBelow(r.node, |r.st.dst|)
    ensures Grows(st, r.st, if allowDup then Source(src, n).handle else None)
    ensures var h := Source(src, n).handle;
            h.Some? && (!st.smart || st.recordHits) ==> h.value in r.st.copied && r.node == Ref(r.st.copied[h.value])
    ensures Deref(src, n).NullObj? ==> r == Copied(Null, st)
    ensures var look := Look(src, Source(src, n), st, md5);
            var h := Source(src, n).handle;
            look.found.Some? ==>
              && look.found.value in st.copied
              && r.node == Ref(st.copied[look.found.value]) && r.st.dst == st.dst
              && (!st.recordHits || h.None? ==> r.st.copied == st.copied)
              && (st.recordHits && h.Some? ==> r.st.copied == st.copied[h.value := st.copied[look.found.value]])
    ensures !st.smart ==> CopyOf(src, n, r.node, r.st.copied)
    ensures var h := Source(src, n).handle;
            !st.smart && h.Some? ==>
              && h.value in r.st.copied && r.st.copied[h.value] < |r.st.dst|
              && ContentCopy(src, Source(src, n).node, r.st.dst[r.st.copied[h.value]], r.st.copied)
    decreases Unmapped(src, st.copied), if allowDup then 1 else 0, n, 2
  {
    var look := Look(src, Source(src, n), st, md5);
    LookKeeps(src, Source(src, n), st, md5);
    if look.found.Some? then
      var num := st.copied[look.found.value];
      var h := Source(src, n).handle;
      if st.recordHits && h.Some? then
        Copied(Ref(num), st.(memo := look.memo, copied := st.copied[h.value := num]))
      else
        Copied(Ref(num), st.(memo := look.memo))
    else
      CopyNew(src, n, allowDup, st, look, md5)
  }

  /** `newInstance` and `copyContent`: a new object is made, registered in
      the copy map first when the source object is indirect, and its
      content copied; `look` is the (missed) smart-copy lookup. */
  function CopyNew(src: Doc, n: Node, allowDup: bool, st: State, look: Lookup, md5: Digest): (r: Copied)
    requires Valid(st)
    requires var h := Source(src, n).handle; !(!allowDup && h.Some? && h.value in st.copied)
    requires look == Look(src, Source(src, n), st, md5) && look.found.None?
    ensures Valid(r.st) && RefsBelow(r.node, |r.st.dst|)
    ensures Grows(st, r.st, if allowDup then Source(src, n).handle else None)
    ensures var h := Source(src, n).handle;
            h.Some? ==> h.value in r.st.copied && r.node == Ref(r.st.copied[h.value])
    ensures Deref(src, n).NullObj? ==> r == Copied(Null, st)
    ensures !st.smart ==> CopyOf(src, n, r.node, r.st.copied)
    ensures var h := Source(src, n).handle;
            !st.smart && h.Some? ==>
              && h.value in r.st.copied && r.st.copied[h.value] < |r.st.dst|
              && ContentCopy(src, Source(src, n).node, r.st.dst[r.st.copied[h.value]], r.st.copied)
    decreases Unmapped(src, st.copied), if allowDup then 1 else 0, n, 1
  {
    var o := Source(src, n);
    var h := o.handle;
    LookKeeps(src, o, st, md5);
    if h.Some? then
      CopyIndirect(src, n, allowDup, st, look, md5)
    else if n.Ref? then
      Copied(Null, st)
    else
      var st' := st.(memo := look.memo, index := look.index);
      var r := CopyContent(src, n, st', md5);
      GrowsTrans(st, st', r.st);
      r
  }

  /** The indirect case of `CopyNew`: the object gets a new destination
      object through `Allocate`, after the lookup's memo and index. */
  function CopyIndirect(src: Doc, n: Node, allowDup: bool, st: State, look: Lookup, md5: Digest): (r: Copied)
    requires Valid(st) && Source(src, n).handle.Some?
    requires allowDup || Source(src, n).handle.value !in st.copied
    requires look == Look(src, Source(src, n), st, md5) && look.found.None?
    ensures Valid(r.st) && RefsBelow(r.node, |r.st.dst|)
    ensures Grows(st, r.st, if allowDup then Source(src, n).handle else None)
    ensures var h := Source(src, n).handle.value;
            && h in r.st.copied && r.node == Ref(r.st.copied[h]) && r.st.copied[h] < |r.st.dst|
            && (!st.smart ==> ContentCopy(src, Source(src, n).node, r.st.dst[r.st.copied[h]], r.st.copied))
    decreases Unmapped(src, st.copied), if allowDup then 1 else 0, n, 0
  {
    var o := Source(src, n);
    var h := o.handle.value;
    LookKeeps(src, o, st, md5);
    UnmappedShrinks(src, st.copied, st.copied[h := |st.dst|], h.num);
    var r := Allocate(src, o.node, h, st.(memo := look.memo), look.index, md5);
    GrowsAfterLookup(st, look.memo, r.st, h, allowDup);
    r
  }

  /** `Grows` composes. */
  lemma GrowsTrans(a: State, b: State, c: State)
    requires Grows(a, b, None) && Grows(b, c, None)
    ensures Grows(a, c, None)
  {
    assert c.dst[..|a.dst|] == c.dst[..|b.dst|][..|a.dst|];
  }

  /** The lookup only extended the memo, and an object copied without
      duplication had no copy-map entry to replace. */
  lemma GrowsAfterLookup(st: State, memo: Memo, st': State, h: Key, allowDup: bool)
    requires Extends(st.memo, memo) && Grows(st.(memo := memo), st', Some(h))
    requires !allowDup ==> h !in st.copied
    ensures Grows(st, st', if allowDup then Some(h) else None)
  {
  }

  /** A new destination object for the indirect source object `h` with
      content `n`: an empty object of the same kind is appended and entered
      in the copy map before the content is copied, so that a cycle back to
      `h` finds it; the copied content then fills it. `index` is the index
      after the smart-copy lookup, which may already name `h`. */
  function Allocate(src: Doc, n: Node, h: Key, st: State, index: Index, md5: Digest): (r: Copied)
    requires Valid(st) && IndexExtends(st.index, index)
    requires IndexCopied(index, st.copied[h := |st.dst|])
    ensures Valid(r.st) && r.node == Ref(|st.dst|) && |r.st.dst| > |st.dst|
    ensures h in r.st.copied && r.st.copied[h] == |st.dst|
    ensures Grows(st, r.st, Some(h))
    ensures !st.smart ==> ContentCopy(src, n, r.st.dst[|st.dst|], r.st.copied)
    decreases Unmapped(src, st.copied[h := |st.dst|]), 0, n, 1
  {
    var st2 := Reserve(st, h, n, index);
    var c := CopyContent(src, n, st2, md5);
    FillKeeps(st, st2, c.st, h, c.node);
    Copied(Ref(|st.dst|), c.st.(dst := c.st.dst[|st.dst| := c.node]))
  }

  /** `newObject.copyContent(object, document)`: the same kind of object
      with every child copied (children are never duplicated). A reference
      stored as an object's own content is not resolved and becomes null. */
  function CopyContent(src: Doc, n: Node, st: State, md5: Digest): (r: Copied)
    requires Valid(st)
    ensures Valid(r.st) && RefsBelow(r.node, |r.st.dst|)
    ensures Grows(st, r.st, None)
    ensures n.Ref? ==> r == Copied(Null, st)
    ensures !n.Arr? && !n.Dict? && !n.Stream? && !n.Ref? ==> r == Copied(n, st)
    ensures !st.smart ==> ContentCopy(src, n, r.node, r.st.copied)
    decreases Unmapped(src, st.copied), 0, n, 0
  {
    match n
    case Arr(items) =>
      var c := CopyItems(src, items, st, md5);
      Copied(Arr(c.0), c.1)
    case Dict(es) =>
      var c := CopyEntries(src, es, st, md5);
      Copied(Dict(c.0), c.1)
    case Stream(es, bytes) =>
      var c := CopyEntries(src, es, st, md5);
      Copied(Stream(c.0, bytes), c.1)
    case Ref(_) => Copied(Null, st)
    case _ => Copied(n, st)
  }

  function CopyItems(src: Doc, items: seq<Node>, st: State, md5: Digest): (r: (seq<Node>, State))
    requires Valid(st)
    ensures Valid(r.1) && |r.0| == |items|
    ensures forall i :: 0 <= i < |r.0| ==> RefsBelow(r.0[i], |r.1.dst|)
    ensures Grows(st, r.1, None)
    ensures !st.smart ==> forall i :: 0 <= i < |items| ==> CopyOf(src, items[i], r.0[i], r.1.copied)
    decreases Unmapped(src, st.copied), 0, items, 0
  {
    if |items| == 0 then ([], st)
    else
      var x := CopyObject(src, items[0], false, st, md5);
      UnmappedShrinks(src, st.copied, x.st.copied, 0);
      var rest := CopyItems(src, items[1..], x.st, md5);
      RefsBelowGrow(x.node, |x.st.dst|, |rest.1.dst|);
      GrowsTrans(st, x.st, rest.1);
      ItemsCopied(st.smart, src, items, x.node, x.st.copied, rest.0, rest.1.copied);
      ([x.node] + rest.0, rest.1)
  }

  /** Outside smart mode, the items copied one by one, each resolved through
      the final copy map. */
  lemma ItemsCopied(smart: bool, src: Doc, items: seq<Node>, x: Node, xc: map<Key, nat>, rest: seq<Node>, c: map<Key, nat>)
    requires |items| > 0 && |rest| == |items| - 1 && MapKept(xc, c)
    requires !smart ==> CopyOf(src, items[0], x, xc)
    requires !smart ==> forall i :: 0 <= i < |rest| ==> CopyOf(src, items[1..][i], rest[i], c)
    ensures !smart ==> forall i :: 0 <= i < |items| ==> CopyOf(src, items[i], ([x] + rest)[i], c)
  {
    if smart { return; }
    CopyOfGrow(src, items[0], x, xc, c);
    forall i | 1 <= i < |items| ensures CopyOf(src, items[i], ([x] + rest)[i], c) {
      assert items[i] == items[1..][i - 1];
    }
  }

  function CopyEntries(src: Doc, es: seq<Entry>, st: State, md5: Digest): (r: (seq<Entry>, State))
    requires Valid(st)
    ensures Valid(r.1) && |r.0| == |es|
    ensures forall i :: 0 <= i < |r.0| ==> r.0[i].key == es[i].key && RefsBelow(r.0[i].value, |r.1.dst|)
    ensures Grows(st, r.1, None)
    ensures !st.smart ==> forall i :: 0 <= i < |es| ==> CopyOf(src, es[i].value, r.0[i].value, r.1.copied)
    decreases Unmapped(src, st.copied), 0, es, 0
  {
    if |es| == 0 then ([], st)
    else
      var x := CopyObject(src, es[0].value, false, st, md5);
      UnmappedShrinks(src, st.copied, x.st.copied, 0);
      var rest := CopyEntries(src, es[1..], x.st, md5);
      RefsBelowGrow(x.node, |x.st.dst|, |rest.1.dst|);
      GrowsTrans(st, x.st, rest.1);
      EntriesCopied(st.smart, src, es, x.node, x.st.copied, rest.0, rest.1.copied);
      ([Entry(es[0].key, x.node)] + rest.0, rest.1)
  }

  /** Outside smart mode, the entry values copied one by one, each resolved
      through the final copy map. */
  lemma EntriesCopied(smart: bool, src: Doc, es: seq<Entry>, x: Node, xc: map<Key, nat>, rest: seq<Entry>, c: map<Key, nat>)
    requires |es| > 0 && |rest| == |es| - 1 && MapKept(xc, c)
    requires !smart ==> CopyOf(src, es[0].value, x, xc)
    requires !smart ==> forall i :: 0 <= i < |rest| ==> CopyOf(src, es[1..][i].value, rest[i].value, c)
    ensures !smart ==> forall i :: 0 <= i < |es| ==> CopyOf(src, es[i].value, ([Entry(es[0].key, x)] + rest)[i].value, c)
  {
    if smart { return; }
    CopyOfGrow(src, es[0].value, x, xc, c);
    forall i | 1 <= i < |es| ensures CopyOf(src, es[i].value, ([Entry(es[0].key, x)] + rest)[i].value, c) {
      assert es[i] == es[1..][i - 1];
    }
  }

  /** Without smart copy, or in smart mode with hits recorded (the
      correction in the README's findings), an indirect object is copied at
      most once: a second copy that does not allow duplicates returns the
      first copy and changes nothing. */
  lemma CopyTwice(src: Doc, n: Node, st: State, md5: Digest)
    requires Valid(st) && (!st.smart || st.recordHits) && Source(src, n).handle.Some?
    ensures var first := CopyObject(src, n, false, st, md5);
            CopyObject(src, n, false, first.st, md5) == first
  {
  }

  /** A one-entry list copies its value and keeps its key. */
  lemma CopyOneEntry(src: Doc, e: Entry, st: State, md5: Digest)
    requires Valid(st)
    ensures var x := CopyObject(src, e.value, false, st, md5);
            CopyEntries(src, [e], st, md5) == ([Entry(e.key, x.node)], x.st)
  {
    assert [e][0] == e && [e][1..] == [];
    var x := CopyObject(src, e.value, false, st, md5);
    assert CopyEntries(src, [], x.st, md5) == ([], x.st);
    assert [Entry(e.key, x.node)] + [] == [Entry(e.key, x.node)];
  }

  /** Without smart copy, an indirect object not yet copied gets a new
      destination object. */
  lemma CopyFresh(src: Doc, n: Node, st: State, md5: Digest)
    requires Valid(st) && !st.smart
    requires Source(src, n).handle.Some? && Source(src, n).handle.value !in st.copied
    ensures CopyObject(src, n, false, st, md5)
         == Allocate(src, Source(src, n).node, Source(src, n).handle.value, st, st.index, md5)
  {
    var look := Look(src, Source(src, n), st, md5);
    assert st.(memo := look.memo) == st;
    assert CopyObject(src, n, false, st, md5) == CopyNew(src, n, false, st, look, md5);
    assert CopyNew(src, n, false, st, look, md5) == CopyIndirect(src, n, false, st, look, md5);
  }

  /** An indirect object not yet copied, whose smart-copy lookup (if any)
      misses, gets a new destination object. */
  lemma CopyMissed(src: Doc, n: Node, st: State, md5: Digest)
    requires Valid(st)
    requires Source(src, n).handle.Some? && Source(src, n).handle.value !in st.copied
    requires Look(src, Source(src, n), st, md5).found.None?
    ensures var look := Look(src, Source(src, n), st, md5);
            CopyObject(src, n, false, st, md5) ==
              Allocate(src, Source(src, n).node, Source(src, n).handle.value, st.(memo := look.memo), look.index, md5)
  {
    var look := Look(src, Source(src, n), st, md5);
    assert CopyObject(src, n, false, st, md5) == CopyMiss(src, n, false, st, md5);
    assert CopyMiss(src, n, false, st, md5) == CopyNew(src, n, false, st, look, md5);
    assert CopyNew(src, n, false, st, look, md5) == CopyIndirect(src, n, false, st, look, md5);
  }

  /** Objects `a` and `b` of `src` are one-entry dictionaries that point at
      each other. */
  predicate TwoCycle(src: Doc, a: nat, b: nat, ka: string, kb: string)
  {
    && a != b && a < |src.objects| && b < |src.objects|
    && src.objects[a] == Some(Dict([Entry(ka, Ref(b))]))
    && src.objects[b] == Some(Dict([Entry(kb, Ref(a))]))
  }

  /** The back edge: with both objects reserved (as destinations `num` and
      `num + 1`), the entry of `b` finds `a` in the copy map and nothing
      changes. */
  lemma CycleBack(src: Doc, a: nat, b: nat, ka: string, kb: string, st: State, md5: Digest)
    requires TwoCycle(src, a, b, ka, kb) && Valid(st)
    requires Key(a, src.id) in st.copied
    ensures CopyContent(src, Dict([Entry(kb, Ref(a))]), st, md5)
         == Copied(Dict([Entry(kb, Ref(st.copied[Key(a, src.id)]))]), st)
  {
    assert Source(src, Ref(a)).handle == Some(Key(a, src.id));
    CopyOneEntry(src, Entry(kb, Ref(a)), st, md5);
  }

  /** Copying `b` once `a` is reserved: `b` gets the next destination
      object, which points back at `a`'s. */
  lemma CycleInner(src: Doc, a: nat, b: nat, ka: string, kb: string, st: State, md5: Digest)
    requires TwoCycle(src, a, b, ka, kb) && Valid(st) && !st.smart
    requires Key(a, src.id) in st.copied && Key(b, src.id) !in st.copied
    ensures var r := CopyObject(src, Ref(b), false, st, md5);
            var num := |st.dst|;
            && r.node == Ref(num) && |r.st.dst| == num + 1 && r.st.dst[..num] == st.dst
            && r.st.dst[num] == Dict([Entry(kb, Ref(st.copied[Key(a, src.id)]))])
            && r.st.copied == st.copied[Key(b, src.id) := num]
  {
    var nb := Dict([Entry(kb, Ref(a))]);
    assert Source(src, Ref(b)) == Obj(nb, Some(Key(b, src.id)));
    CopyFresh(src, Ref(b), st, md5);
    var st2 := Reserve(st, Key(b, src.id), nb, st.index);
    CycleBack(src, a, b, ka, kb, st2, md5);
  }

  /** Two source objects that point at each other are copied into two new
      destination objects that point at each other: the copy map entry made
      before the content is copied stops the cycle. */
  lemma CycleCopied(src: Doc, a: nat, b: nat, ka: string, kb: string, st: State, md5: Digest)
    requires TwoCycle(src, a, b, ka, kb) && Valid(st) && !st.smart
    requires Key(a, src.id) !in st.copied && Key(b, src.id) !in st.copied
    ensures var r := CopyObject(src, Ref(a), false, st, md5);
            var num := |st.dst|;
            && r.node == Ref(num) && |r.st.dst| == num + 2 && r.st.dst[..num] == st.dst
            && r.st.dst[num] == Dict([Entry(ka, Ref(num + 1))])
            && r.st.dst[num + 1] == Dict([Entry(kb, Ref(num))])
  {
    var num := |st.dst|;
    var na := Dict([Entry(ka, Ref(b))]);
    assert Source(src, Ref(a)) == Obj(na, Some(Key(a, src.id)));
    CopyFresh(src, Ref(a), st, md5);
    var st1 := Reserve(st, Key(a, src.id), na, st.index);
    CycleOuter(src, a, b, ka, kb, st1, md5);
    var c := CopyContent(src, na, st1, md5);
    assert c.st.dst[..num] == c.st.dst[..num + 1][..num];
  }

  /** The content step of `CycleCopied`: with `a` already in the copy map,
      copying the entry of `a` copies `b` into the next destination object,
      which points back at `a`'s copy. */
  lemma CycleOuter(src: Doc, a: nat, b: nat, ka: string, kb: string, st: State, md5: Digest)
    requires TwoCycle(src, a, b, ka, kb) && Valid(st) && !st.smart
    requires Key(a, src.id) in st.copied && Key(b, src.id) !in st.copied
    ensures var c := CopyContent(src, Dict([Entry(ka, Ref(b))]), st, md5);
            var num := |st.dst|;
            && c.node == Dict([Entry(ka, Ref(num))]) && |c.st.dst| == num + 1 && c.st.dst[..num] == st.dst
            && c.st.dst[num] == Dict([Entry(kb, Ref(st.copied[Key(a, src.id)]))])
  {
    CycleInner(src, a, b, ka, kb, st, md5);
    CopyOneEntry(src, Entry(ka, Ref(b)), st, md5);
  }

  /** Smart copy shares content: once an indirect dictionary or stream with
      new canonical content has been copied, a later object whose canonical
      bytes are the same is answered with that first copy instead of a new
      destination object. */
  lemma SmartCopyShares(src: Doc, n1: Node, n2: Node, st: State, md5: Digest)
    requires Valid(st) && st.smart
    requires var o1 := Source(src, n1);
             && Hashable(o1) && o1.handle.Some? && o1.handle.value !in st.copied
             && var c := Canon(src, o1, st.memo, md5); !(c in st.index && st.index[c].Some?)
    ensures CopyObject(src, n1, false, st, md5).node == Ref(|st.dst|)
    ensures var first := CopyObject(src, n1, false, st, md5);
            var o2 := Source(src, n2);
            (&& Hashable(o2)
             && !(o2.handle.Some? && o2.handle.value in first.st.copied)
             && Canon(src, o2, first.st.memo, md5) == Canon(src, Source(src, n1), st.memo, md5)) ==>
              CopyObject(src, n2, false, first.st, md5).node == first.node
  {
    SmartFirst(src, n1, st, md5);
    var first := CopyObject(src, n1, false, st, md5);
    var o2 := Source(src, n2);
    if && Hashable(o2)
       && !(o2.handle.Some? && o2.handle.value in first.st.copied)
       && Canon(src, o2, first.st.memo, md5) == Canon(src, Source(src, n1), st.memo, md5)
    {
      var look2 := Look(src, o2, first.st, md5);
      assert look2.found == Source(src, n1).handle;
      assert CopyObject(src, n2, false, first.st, md5) == CopyMiss(src, n2, false, first.st, md5);
    }
  }

  /** The first sighting in `SmartCopyShares`: the object is registered in
      the index under its canonical bytes and gets a new destination object. */
  lemma SmartFirst(src: Doc, n1: Node, st: State, md5: Digest)
    requires Valid(st) && st.smart
    requires var o1 := Source(src, n1);
             && Hashable(o1) && o1.handle.Some? && o1.handle.value !in st.copied
             && var c := Canon(src, o1, st.memo, md5); !(c in st.index && st.index[c].Some?)
    ensures var first := CopyObject(src, n1, false, st, md5);
            var h1 := Source(src, n1).handle.value;
            var c := Canon(src, Source(src, n1), st.memo, md5);
            && first.node == Ref(|st.dst|) && h1 in first.st.copied && first.st.copied[h1] == |st.dst|
            && c in first.st.index && first.st.index[c] == Some(h1)
  {
    var o1 := Source(src, n1);
    var h1 := o1.handle.value;
    var c := Canon(src, o1, st.memo, md5);
    var first := CopyObject(src, n1, false, st, md5);
    var look := Look(src, o1, st, md5);
    assert look.found.None? && look.index == st.index[c := Some(h1)];
    CopyMissed(src, n1, st, md5);
    var a := Allocate(src, o1.node, h1, st.(memo := look.memo), look.index, md5);
    assert first == a;
  }

  /** Smart copy as written forgets its hits. An object answered by a smart
      hit is not entered in the copy map, but the lookup has put it into the
      serializer memo; copying it again therefore serializes it as its
      stored hash, which no registered content starts like, so the second
      copy makes a new destination object instead of returning the first
      answer. */
  lemma SmartHitCopiedAgain(src: Doc, n: Node, st: State, md5: Digest)
    requires Valid(st) && st.smart && !st.recordHits
    requires var o := Source(src, n); Hashable(o) && o.handle.Some? && o.handle.value !in st.copied
    requires Look(src, Source(src, n), st, md5).found.Some?
    requires forall c :: c in st.index && st.index[c].Some? ==> |c| > 0 && c[0] == 36
    ensures var first := CopyObject(src, n, false, st, md5);
            var second := CopyObject(src, n, false, first.st, md5);
            && first.node.Ref? && first.node.num < |st.dst|
            && second.node == Ref(|first.st.dst|)
  {
    var o := Source(src, n);
    var h := o.handle.value;
    var look := Look(src, o, st, md5);
    var first := CopyObject(src, n, false, st, md5);
    assert first == CopyMiss(src, n, false, st, md5);
    assert first.st == st.(memo := look.memo);
    assert h in look.memo;
    DecimalUntagged(look.memo[h]);
    assert Canon(src, o, look.memo, md5) == Decimal(look.memo[h]);
    assert Look(src, o, first.st, md5).found.None?;
    CopyMissed(src, n, first.st, md5);
  }

  /** An empty indirect dictionary not yet in the memo serializes as `$D`
      and is entered in the memo under the hash of that text. */
  lemma EmptyDictCanon(src: Doc, h: Key, memo: Memo, md5: Digest)
    requires h !in memo
    ensures SerObject(src, Obj(Dict([]), Some(h)), StartLevel, memo, md5)
         == Ser(Ascii("$D"), memo[h := Hash(Ascii("$D"))])
  {
    assert KeyOrder.SortEntries([]) == [];
    assert SerDic(src, [], StartLevel - 1, memo, md5) == Ser(Ascii("$D") + [], memo);
    assert Ascii("$D") + [] == Ascii("$D");
  }

  /** The first step of `SmartCopyTwiceSplits`: copying the empty
      dictionary 1 in smart mode from the empty state makes destination
      object 0 and registers 1 under `$D`. */
  lemma SplitsFirst(src: Doc, md5: Digest)
    requires src == Doc(0, [None, Some(Dict([])), Some(Dict([]))])
    ensures var a := CopyObject(src, Ref(1), false, State([], [], map[], map[], map[], true, false), md5);
            var k1 := Key(1, 0);
            && a.node == Ref(0) && |a.st.dst| == 1 && a.st.copied == map[k1 := 0]
            && a.st.index == map[Ascii("$D") := Some(k1)] && a.st.memo == map[k1 := Hash(Ascii("$D"))]
  {
    var st := State([], [], map[], map[], map[], true, false);
    var k1 := Key(1, 0);
    var o1 := Source(src, Ref(1));
    assert o1 == Obj(Dict([]), Some(k1));
    var tag := Ascii("$D");
    var m1 := map[k1 := Hash(tag)];
    EmptyDictCanon(src, k1, map[], md5);
    var look1 := Look(src, o1, st, md5);
    assert look1.found.None? && look1.memo == m1;
    CopyMissed(src, Ref(1), st, md5);
    var st2 := Reserve(st.(memo := m1), k1, Dict([]), look1.index);
    assert CopyEntries(src, [], st2, md5) == ([], st2);
  }

  /** The rest of `SmartCopyTwiceSplits`: from a smart state as written in
      which only object 1 is copied, to destination object 0, and registered
      under `$D`, copying the empty dictionary 2 is a smart hit answered
      with 0, and copying it again makes a new destination object. */
  lemma SplitsRest(src: Doc, st1: State, md5: Digest)
    requires src == Doc(0, [None, Some(Dict([])), Some(Dict([]))])
    requires Valid(st1) && st1.smart && !st1.recordHits && st1.copied == map[Key(1, 0) := 0]
    requires st1.index == map[Ascii("$D") := Some(Key(1, 0))] && st1.memo == map[Key(1, 0) := Hash(Ascii("$D"))]
    ensures var b := CopyObject(src, Ref(2), false, st1, md5);
            b.node == Ref(0) && CopyObject(src, Ref(2), false, b.st, md5).node == Ref(|st1.dst|)
  {
    var o2 := Source(src, Ref(2));
    assert o2 == Obj(Dict([]), Some(Key(2, 0)));
    EmptyDictCanon(src, Key(2, 0), st1.memo, md5);
    assert Look(src, o2, st1, md5).found == Some(Key(1, 0));
    var b := CopyObject(src, Ref(2), false, st1, md5);
    assert b == CopyMiss(src, Ref(2), false, st1, md5);
    assert Ascii("$D")[0] == 36;
    SmartHitCopiedAgain(src, Ref(2), st1, md5);
  }

  /** Smart copy as written, on a document whose objects 1 and 2 are both
      empty dictionaries: copying 1 makes destination object 0, copying 2
      is a smart hit answered with 0, and copying 2 again makes a second
      destination object, 1. */
  lemma SmartCopyTwiceSplits(md5: Digest)
    ensures var src := Doc(0, [None, Some(Dict([])), Some(Dict([]))]);
            var a := CopyObject(src, Ref(1), false, State([], [], map[], map[], map[], true, false), md5);
            var b := CopyObject(src, Ref(2), false, a.st, md5);
            var c := CopyObject(src, Ref(2), false, b.st, md5);
            a.node == Ref(0) && b.node == Ref(0) && c.node == Ref(1)
  {
    var src := Doc(0, [None, Some(Dict([])), Some(Dict([]))]);
    SplitsFirst(src, md5);
    var a := CopyObject(src, Ref(1), false, State([], [], map[], map[], map[], true, false), md5);
    SplitsRest(src, a.st, md5);
  }

  /** Without smart copy, two different indirect source objects are copied
      to two different destination objects. */
  lemma DistinctCopies(src: Doc, n1: Node, n2: Node, st: State, md5: Digest)
    requires Valid(st) && !st.smart
    requires Source(src, n1).handle.Some? && Source(src, n2).handle.Some?
    requires Source(src, n1).handle != Source(src, n2).handle
    ensures var r1 := CopyObject(src, n1, false, st, md5);
            r1.node != CopyObject(src, n2, false, r1.st, md5).node
  {
    var r1 := CopyObject(src, n1, false, st, md5);
    var r2 := CopyObject(src, n2, false, r1.st, md5);
    var h1 := Source(src, n1).handle.value;
    var h2 := Source(src, n2).handle.value;
    assert r2.st.copied[h1] == r1.st.copied[h1];
    assert r2.st.origin[r2.st.copied[h1]] != r2.st.origin[r2.st.copied[h2]];
  }

  // ---------------------------------------------------------------------
  // The copy-map key as the writer computes it
  // ---------------------------------------------------------------------

  /** `getCopyObjectKey` as written: the hash code of the indirect reference
      and that of its document folded into one Java `int`. */
  function FoldedCopyKey(refHash: int, docHash: int): (r: int)
    requires IsInt32(refHash) && IsInt32(docHash)
    ensures IsInt32(r)
    ensures (r - (31 * refHash + docHash)) % Two32 == 0
  {
    ToInt32(31 * refHash + docHash)
  }

  /** The copy map as written, keyed by the folded key: the destination
      object recorded for a key, if any. */
  function FoldedLookup(copiedObjects: map<int, nat>, refHash: int, docHash: int): (r: Option<nat>)
    requires IsInt32(refHash) && IsInt32(docHash)
    ensures r.Some? <==> FoldedCopyKey(refHash, docHash) in copiedObjects
    ensures r.Some? ==> r.value == copiedObjects[FoldedCopyKey(refHash, docHash)]
  {
    var k := FoldedCopyKey(refHash, docHash);
    if k in copiedObjects then Some(copiedObjects[k]) else None
  }

  /** The folded key confuses distinct source objects: once an object whose
      reference and document hash to `h` and `d` has been copied to `num`,
      a different object whose hashes are `h + 1` and `d - 31` (a distinct
      pair) is answered with that same copy instead of its own. */
  lemma FoldedCopyShared(copiedObjects: map<int, nat>, h: int, d: int, num: nat)
    requires IsInt32(h) && IsInt32(d) && IsInt32(h + 1) && IsInt32(d - 31)
    ensures (h, d) != (h + 1, d - 31)
    ensures FoldedLookup(copiedObjects[FoldedCopyKey(h, d) := num], h + 1, d - 31) == Some(num)
  {
    assert 31 * (h + 1) + (d - 31) == 31 * h + d;
  }
}

=== FILE: flush.dfy ===
/** The flush engine of the writer: the per-object state flags kept in the
    document's cross-reference table, the object-stream selection policy,
    `flushObject` with its "must be flushed" cascade, and the two sweeps
    (`flushWaitingObjects`, `flushModifiedWaitingObjects`).

    The writer's mutable state is an immutable `Writer` value that each
    operation returns updated. Output bytes are not modelled: the current
    output position is an abstract counter that grows by one for each
    object written to the body. */
module Flush {
  import opened Objects

  /** Capacity of one object stream (`PdfObjectStream.maxObjStreamSize`). */
  const MaxObjStreamSize: nat := 200

  /** The state bits of an indirect reference. */
  datatype Flags = Flags(flushed: bool, mustBeFlushed: bool, modified: bool)

  /** What the reference holds: nothing loaded (`getRefersTo(false)` is null),
      the live object, or the empty sentinel left after the content was
      released by a flush. */
  datatype Content = Absent | Resident(node: Node) | Released(kind: Kind)

  /** An indirect reference: flags, referent, and the body offset once the
      object was written inline. */
  datatype Handle = Handle(flags: Flags, content: Content, offset: Option<nat>)

  /** The cross-reference table, indexed by object number; slot 0 is never
      visited by the sweeps, and a slot may be empty. */
  type Table = seq<Option<Handle>>

  /** An object stream: its object number, how many objects it holds, and the
      stream it was chained to when the previous one filled up. */
  datatype ObjStm = ObjStm(num: nat, size: nat, prev: Option<nat>)

  /** The writer: the table, the output position, the full-compression switch,
      the open object stream, the object streams already written (oldest
      first) and the next object number handed to a new object stream. */
  datatype Writer = Writer(
    table: Table,
    pos: nat,
    fullCompression: bool,
    objStm: Option<ObjStm>,
    written: seq<ObjStm>,
    nextStm: nat)

  /** The flag invariant: an object waiting to be flushed is not flushed yet,
      and only a flushed object has its content released. */
  predicate HandleOk(h: Handle)
  {
    && (h.flags.mustBeFlushed ==> !h.flags.flushed)
    && (h.content.Released? ==> h.flags.flushed)
  }

  predicate TableOk(t: Table)
  {
    forall i :: 0 <= i < |t| && t[i].Some? ==> HandleOk(t[i].value)
  }

  /** Writer invariant. Object streams are numbered past the table (their
      allocation in the document is not modelled) and never exceed capacity. */
  predicate Valid(w: Writer)
  {
    && TableOk(w.table)
    && |w.table| <= w.nextStm
    && (w.objStm.Some? ==>
          && |w.table| <= w.objStm.value.num < w.nextStm
          && w.objStm.value.size <= MaxObjStreamSize)
  }

  predicate Flushed(t: Table, j: nat)
  {
    j < |t| && t[j].Some? && t[j].value.flags.flushed
  }

  /** The sweep's test: marked MustBeFlushed and its object is present. */
  predicate Pending(t: Table, j: nat)
  {
    j < |t| && t[j].Some? && t[j].value.flags.mustBeFlushed && !t[j].value.content.Absent?
  }

  /** No entry from object number 1 upward is left waiting with its object present. */
  predicate NoPending(t: Table)
  {
    forall j :: 1 <= j < |t| ==> !Pending(t, j)
  }

  // ---------------------------------------------------------------------
  // Object-stream selection policy
  // ---------------------------------------------------------------------

  /** The result of `getObjectStream`: the updated writer and the stream
      returned (None for Java's null). */
  datatype Picked = Picked(w: Writer, stm: Option<ObjStm>)

  /** `objectStream.flush()`: the open stream is written to the body. */
  function FlushStream(w: Writer): (r: Writer)
    requires w.objStm.Some?
    ensures r.written == w.written + [w.objStm.value]
    ensures r.objStm.None? && r.pos > w.pos
    ensures r.table == w.table && r.nextStm == w.nextStm && r.fullCompression == w.fullCompression
  {
    w.(pos := w.pos + 1, written := w.written + [w.objStm.value], objStm := None)
  }

  /** `getObjectStream`: null when full compression is off; otherwise the
      open stream, a new one if none is open, or — when the open one is
      full — a fresh one chained to it after the full one was written. */
  function GetObjectStream(w: Writer): (p: Picked)
    ensures p.stm.None? <==> !w.fullCompression
    ensures !w.fullCompression ==> p.w == w
    ensures p.stm.Some? ==> p.w.objStm == p.stm
    ensures p.w.table == w.table && p.w.fullCompression == w.fullCompression
    ensures w.written <= p.w.written
    ensures Valid(w) ==> Valid(p.w)
    ensures Valid(w) && p.stm.Some? ==> p.stm.value.size < MaxObjStreamSize
    ensures w.fullCompression && w.objStm.Some? && w.objStm.value.size == MaxObjStreamSize ==>
              && p.w.written == w.written + [w.objStm.value]
              && p.stm.value.prev == Some(w.objStm.value.num)
              && p.stm.value.size == 0
    ensures Valid(w) && p.stm.Some? && w.objStm.Some? && p.stm != w.objStm ==>
              p.stm.value.num > w.objStm.value.num
    ensures w.fullCompression && w.objStm.Some? && w.objStm.value.size != MaxObjStreamSize ==> p.w == w
    ensures w.fullCompression && w.objStm.None? ==> p.stm.value.size == 0 && p.stm.value.prev.None?
  {
    if !w.fullCompression then
      Picked(w, None)
    else if w.objStm.None? then
      var s := ObjStm(w.nextStm, 0, None);
      Picked(w.(objStm := Some(s), nextStm := w.nextStm + 1), Some(s))
    else if w.objStm.value.size == MaxObjStreamSize then
      var full := w.objStm.value;
      var w1 := FlushStream(w);
      var s := ObjStm(w1.nextStm, 0, Some(full.num));
      Picked(w1.(objStm := Some(s), nextStm := w1.nextStm + 1), Some(s))
    else
      Picked(w, w.objStm)
  }

  // ---------------------------------------------------------------------
  // The MustBeFlushed cascade
  // ---------------------------------------------------------------------

  /** `k` is reached from `n` through direct arrays and dictionaries: the
      object numbers `markObjectToFlush(n)` marks (a direct stream is not
      entered). */
  predicate Targets(n: Node, k: nat)
  {
    match n
    case Ref(m) => m == k
    case Arr(items) => exists i :: 0 <= i < |items| && Targets(items[i], k)
    case Dict(es) => exists i :: 0 <= i < |es| && Targets(es[i].value, k)
    case _ => false
  }

  predicate ItemsTarget(items: seq<Node>, from: nat, k: nat)
  {
    exists i :: from <= i < |items| && Targets(items[i], k)
  }

  predicate EntriesTarget(es: seq<Entry>, from: nat, k: nat)
  {
    exists i :: from <= i < |es| && Targets(es[i].value, k)
  }

  /** A handle after `markObjectToFlush` reached it (`hit`): MustBeFlushed is
      set unless it is already flushed. */
  function MarkedAs(h: Handle, hit: bool): Handle
  {
    if hit && !h.flags.flushed then h.(flags := h.flags.(mustBeFlushed := true)) else h
  }

  function MarkSlot(o: Option<Handle>, hit: bool): Option<Handle>
  {
    if o.Some? then Some(MarkedAs(o.value, hit)) else None
  }

  lemma MarkSlotTwice(o: Option<Handle>, a: bool, b: bool)
    ensures MarkSlot(MarkSlot(o, a), b) == MarkSlot(o, a || b)
  {
  }

  /** Marks the handle with object number `k`, if the table has one. */
  function MarkHandle(t: Table, k: nat): (r: Table)
    ensures |r| == |t|
    ensures forall j :: 0 <= j < |t| ==> r[j] == MarkSlot(t[j], j == k)
  {
    if k < |t| && t[k].Some? then t[k := MarkSlot(t[k], true)] else t
  }

  /** `markObjectToFlush`: every handle `n` reaches through direct
      containers gets MustBeFlushed unless it is flushed; nothing else in the
      table changes. */
  function MarkObject(t: Table, n: Node): (r: Table)
    ensures |r| == |t|
    ensures forall j :: 0 <= j < |t| ==> r[j] == MarkSlot(t[j], Targets(n, j))
    decreases n
  {
    match n
    case Ref(k) => MarkHandle(t, k)
    case Arr(items) => MarkItems(t, items, 0)
    case Dict(es) => MarkEntries(t, es, 0)
    case _ => t
  }

  /** `markArrayContentToFlush`, from item `from` on. */
  function MarkItems(t: Table, items: seq<Node>, from: nat): (r: Table)
    requires from <= |items|
    ensures |r| == |t|
    ensures forall j :: 0 <= j < |t| ==> r[j] == MarkSlot(t[j], ItemsTarget(items, from, j))
    decreases items, |items| - from
  {
    if from == |items| then t
    else
      var t1 := MarkObject(t, items[from]);
      var r := MarkItems(t1, items, from + 1);
      assert forall j :: 0 <= j < |t| ==> r[j] == MarkSlot(t[j], ItemsTarget(items, from, j)) by {
        forall j | 0 <= j < |t|
          ensures r[j] == MarkSlot(t[j], ItemsTarget(items, from, j))
        {
          MarkSlotTwice(t[j], Targets(items[from], j), ItemsTarget(items, from + 1, j));
        }
      }
      r
  }

  /** `markDictionaryContentToFlush`, from entry `from` on. */
  function MarkEntries(t: Table, es: seq<Entry>, from: nat): (r: Table)
    requires from <= |es|
    ensures |r| == |t|
    ensures forall j :: 0 <= j < |t| ==> r[j] == MarkSlot(t[j], EntriesTarget(es, from, j))
    decreases es, |es| - from
  {
    if from == |es| then t
    else
      var t1 := MarkObject(t, es[from].value);
      var r := MarkEntries(t1, es, from + 1);
      assert forall j :: 0 <= j < |t| ==> r[j] == MarkSlot(t[j], EntriesTarget(es, from, j)) by {
        forall j | 0 <= j < |t|
          ensures r[j] == MarkSlot(t[j], EntriesTarget(es, from, j))
        {
          MarkSlotTwice(t[j], Targets(es[from].value, j), EntriesTarget(es, from + 1, j));
        }
      }
      r
  }

  // ---------------------------------------------------------------------
  // flushObject
  // ---------------------------------------------------------------------

  /** The handles `flushObject` marks after writing object `n`: the items of
      an array, the values of a dictionary or stream dictionary, or the
      target of a reference when that target is present. */
  predicate FlushTarget(t: Table, n: Node, k: nat)
  {
    match n
    case Arr(items) => ItemsTarget(items, 0, k)
    case Dict(es) => EntriesTarget(es, 0, k)
    case Stream(es, _) => EntriesTarget(es, 0, k)
    case Ref(m) => m == k && k < |t| && t[k].Some? && !t[k].value.content.Absent?
    case _ => false
  }

  /** What is left of a flushed object: a reference keeps its target, every
      other object has its content released. */
  function ReleasedContent(n: Node): Content
  {
    if n.Ref? then Resident(n) else Released(KindOf(n))
  }

  /** Writes the object: into the open object stream (after
      `getObjectStream`) or inline, recording the current position as its
      offset. Only the writer's output state changes. */
  function PlaceObject(w: Writer, packed: bool): (r: Writer)
    requires Valid(w)
    requires packed ==> w.fullCompression
    ensures Valid(r) && r.table == w.table && r.fullCompression == w.fullCompression
    ensures w.written <= r.written
    ensures r.nextStm >= w.nextStm && r.pos >= w.pos
    ensures packed ==> r.objStm.Some? && r.objStm.value.size > 0
    ensures !packed ==> r.objStm == w.objStm && r.pos == w.pos + 1
  {
    if packed then
      var p := GetObjectStream(w);
      var s := p.stm.value;
      p.w.(objStm := Some(s.(size := s.size + 1)))
    else
      w.(pos := w.pos + 1)
  }

  /** The cascade part of `flushObject`: marks what the written object points to. */
  function MarkContent(t: Table, n: Node): (r: Table)
    ensures |r| == |t|
    ensures forall j :: 0 <= j < |t| ==> r[j] == MarkSlot(t[j], FlushTarget(t, n, j))
  {
    match n
    case Arr(items) => MarkItems(t, items, 0)
    case Dict(es) => MarkEntries(t, es, 0)
    case Stream(es, _) => MarkEntries(t, es, 0)
    case Ref(k) => if k < |t| && t[k].Some? && !t[k].value.content.Absent? then MarkHandle(t, k) else t
    case _ => t
  }

  /** `flushObject(pdfObject, canBeInObjStm)` for the object with number `i`:
      into the open object stream when full compression is on and the object
      may be packed, otherwise inline at the current position; then the
      object is Flushed and no longer MustBeFlushed, the objects it points
      to are marked, and its content is released. */
  function FlushObject(w: Writer, i: nat, canBeInObjStm: bool): (r: Writer)
    requires Valid(w) && i < |w.table| && w.table[i].Some? && w.table[i].value.content.Resident?
    ensures Valid(r)
    ensures |r.table| == |w.table| && r.nextStm >= w.nextStm && r.pos >= w.pos
    ensures r.fullCompression == w.fullCompression && w.written <= r.written
    ensures r.table[i].Some? && r.table[i].value.flags.flushed && !r.table[i].value.flags.mustBeFlushed
    ensures r.table[i].value.flags.modified == w.table[i].value.flags.modified
    ensures r.table[i].value.content == ReleasedContent(w.table[i].value.content.node)
    ensures w.fullCompression && canBeInObjStm ==>
              r.table[i].value.offset == w.table[i].value.offset && r.objStm.Some? && r.objStm.value.size > 0
    ensures !(w.fullCompression && canBeInObjStm) ==>
              r.table[i].value.offset == Some(w.pos) && r.objStm == w.objStm
    ensures forall j :: 0 <= j < |w.table| && j != i ==>
              r.table[j] == MarkSlot(w.table[j], FlushTarget(w.table, w.table[i].value.content.node, j))
  {
    var h := w.table[i].value;
    var node := h.content.node;
    var packed := w.fullCompression && canBeInObjStm;
    var w1 := PlaceObject(w, packed);
    var offset := if packed then h.offset else Some(w.pos);
    var h1 := h.(flags := h.flags.(flushed := true, mustBeFlushed := false), offset := offset);
    var t1 := w1.table[i := Some(h1)];
    var t2 := MarkContent(t1, node);
    assert t2[i] == Some(h1);
    assert forall j :: 0 <= j < |t1| && j != i ==> FlushTarget(t1, node, j) == FlushTarget(w.table, node, j);
    var h2 := h1.(content := ReleasedContent(node));
    var t3 := t2[i := Some(h2)];
    assert HandleOk(h2);
    assert TableOk(t3) by {
      forall j | 0 <= j < |t3| && t3[j].Some? ensures HandleOk(t3[j].value) {
        if j != i {
          assert HandleOk(w.table[j].value);
        }
      }
    }
    w1.(table := t3)
  }

  /** Objects that may go into an object stream: streams may not (section
      7.5.7 of ISO 32000-1). */
  predicate MayPack(n: Node)
  {
    !n.Stream?
  }

  /** `PdfObject.flush()` as the sweeps call it: a no-op on an object that is
      already flushed, otherwise `flushObject`, with every kind except a
      stream allowed into an object stream (`MayPack`): null, booleans,
      numbers, names, strings, arrays, dictionaries and references may be
      packed. */
  function FlushIndirect(w: Writer, i: nat): (r: Writer)
    requires Valid(w) && i < |w.table| && w.table[i].Some? && !w.table[i].value.content.Absent?
    ensures Valid(r) && |r.table| == |w.table| && w.written <= r.written
    ensures Flushed(r.table, i)
    ensures w.table[i].value.flags.flushed ==> r == w
  {
    if w.table[i].value.flags.flushed then w
    else FlushObject(w, i, MayPack(w.table[i].value.content.node))
  }

  // ---------------------------------------------------------------------
  // The sweeps
  // ---------------------------------------------------------------------

  /** Number of table entries not yet flushed: the sweep's variant. */
  function Unflushed(t: Table): nat
  {
    if |t| == 0 then 0
    else Unflushed(t[..|t| - 1]) + (if t[|t| - 1].Some? && !t[|t| - 1].value.flags.flushed then 1 else 0)
  }

  predicate Live(t: Table, j: nat)
  {
    j < |t| && t[j].Some? && !t[j].value.flags.flushed
  }

  /** Flushing never un-flushes, so the count cannot grow; it drops when some
      live entry became flushed. */
  lemma {:induction false} UnflushedDecreases(t: Table, r: Table, k: nat)
    requires |r| == |t|
    requires forall j :: 0 <= j < |t| && Live(r, j) ==> Live(t, j)
    ensures Unflushed(r) <= Unflushed(t)
    ensures k < |t| && Live(t, k) && !Live(r, k) ==> Unflushed(r) < Unflushed(t)
    decreases |t|
  {
    if |t| > 0 {
      var n := |t| - 1;
      var t', r' := t[..n], r[..n];
      assert forall j :: 0 <= j < |t'| && Live(r', j) ==> Live(t', j) by {
        forall j | 0 <= j < |t'| && Live(r', j) ensures Live(t', j) {
          assert Live(r, j);
        }
      }
      UnflushedDecreases(t', r', k);
      assert Unflushed(t) == Unflushed(t') + (if Live(t, n) then 1 else 0);
      assert Unflushed(r) == Unflushed(r') + (if Live(r, n) then 1 else 0);
      assert Live(r, n) ==> Live(t, n);
      if k < n && Live(t, k) && !Live(r, k) {
        assert Live(t', k) && !Live(r', k);
      }
    }
  }

  /** What a sweep step keeps: flushed entries are untouched, waiting
      entries stay waiting until flushed, and an entry that is not flushed
      keeps its content and its Modified bit. */
  predicate Keeps(a: Table, b: Table)
  {
    && |b| == |a|
    && (forall j :: 0 <= j < |a| ==> (a[j].Some? <==> b[j].Some?))
    && (forall j :: 0 <= j < |a| && Flushed(a, j) ==> b[j] == a[j])
    && (forall j :: 0 <= j < |a| && Pending(a, j) ==> Pending(b, j) || Flushed(b, j))
    && (forall j :: 0 <= j < |a| && a[j].Some? && !Flushed(b, j) ==>
          b[j].value.content == a[j].value.content && b[j].value.flags.modified == a[j].value.flags.modified)
    && (forall j :: 0 <= j < |a| && a[j].Some? && a[j].value.flags.mustBeFlushed ==>
          b[j].value.flags.mustBeFlushed || Flushed(b, j))
  }

  /** `k` has been dealt with: flushed, marked MustBeFlushed, or not in the table. */
  predicate Covered(t: Table, k: nat)
  {
    k >= |t| || t[k].None? || t[k].value.flags.flushed || t[k].value.flags.mustBeFlushed
  }

  /** Every object flushed since `a` had, when flushed, its targets covered. */
  ghost predicate CascadeClosed(a: Table, b: Table)
    requires |a| == |b|
  {
    forall j, k ::
      (0 <= j < |a| && Flushed(b, j) && !Flushed(a, j) && a[j].Some? && a[j].value.content.Resident?
       && FlushTarget(a, a[j].value.content.node, k)) ==> Covered(b, k)
  }

  /** `k` was waiting when the sweep began. */
  predicate Waiting(a: Table, k: nat)
  {
    k < |a| && a[k].Some? && a[k].value.flags.mustBeFlushed
  }

  /** Entry `j` held an object when the sweep began. */
  predicate Holds(a: Table, j: nat)
  {
    j < |a| && a[j].Some? && a[j].value.content.Resident?
  }

  /** One of the first `m` objects of the flush order `order` points to `k`. */
  ghost predicate Reached(a: Table, order: seq<nat>, m: nat, k: nat)
    requires m <= |order|
  {
    exists p :: 0 <= p < m && Holds(a, order[p]) && FlushTarget(a, a[order[p]].value.content.node, k)
  }

  /** The object flushed `m`-th was waiting when the sweep began, or an
      object flushed before it points to it. */
  ghost predicate Earned(a: Table, order: seq<nat>, m: nat)
    requires m < |order|
  {
    Waiting(a, order[m]) || Reached(a, order, m, order[m])
  }

  /** `order` lists the objects flushed since `a`, in the order they were
      flushed, and each one was earned: waiting from the start, or reached by
      the cascade of an object flushed earlier. Every entry MustBeFlushed in
      `b` is accounted for the same way. */
  ghost predicate InOrder(a: Table, b: Table, order: seq<nat>)
  {
    && (forall m :: 0 <= m < |order| ==> Holds(a, order[m]) && Flushed(b, order[m]) && Earned(a, order, m))
    && (forall k :: 0 <= k < |b| && Flushed(b, k) && !Flushed(a, k) ==> k in order)
    && (forall k :: 0 <= k < |b| && b[k].Some? && b[k].value.flags.mustBeFlushed ==>
          Waiting(a, k) || Reached(a, order, |order|, k))
  }

  /** Appending to the flush order keeps what its prefix reached. */
  lemma ReachedExtend(a: Table, order: seq<nat>, x: nat, m: nat, m2: nat, k: nat)
    requires m <= m2 <= |order| + 1 && m <= |order|
    requires Reached(a, order, m, k)
    ensures Reached(a, order + [x], m2, k)
  {
    var p :| 0 <= p < m && Holds(a, order[p]) && FlushTarget(a, a[order[p]].value.content.node, k);
    assert (order + [x])[p] == order[p];
  }

  /** When nothing was waiting, a sweep flushes nothing: no flush order can
      start, since its first object has no earlier object to be reached from. */
  lemma IdleStaysIdle(a: Table, b: Table, order: seq<nat>)
    requires InOrder(a, b, order)
    requires forall k :: 0 <= k < |a| ==> !Waiting(a, k)
    ensures order == []
    ensures forall k :: 0 <= k < |b| && Flushed(b, k) ==> Flushed(a, k)
  {
    FirstNotEarned(a, order);
  }

  /** With nothing waiting, the first object of a flush order is not earned. */
  lemma FirstNotEarned(a: Table, order: seq<nat>)
    requires forall k :: 0 <= k < |a| ==> !Waiting(a, k)
    ensures |order| > 0 ==> !Earned(a, order, 0)
  {
  }

  /** One flush step of a sweep keeps `Keeps` and the cascade closure, and
      lowers the count of unflushed entries. */
  lemma FlushStep(t0: Table, w: Writer, i: nat)
    requires Valid(w) && Keeps(t0, w.table) && CascadeClosed(t0, w.table)
    requires Pending(w.table, i)
    ensures Keeps(t0, FlushIndirect(w, i).table)
    ensures CascadeClosed(t0, FlushIndirect(w, i).table)
    ensures Unflushed(FlushIndirect(w, i).table) < Unflushed(w.table)
  {
    var t := w.table;
    var r := FlushIndirect(w, i).table;
    assert HandleOk(t[i].value);
    assert r == FlushObject(w, i, MayPack(t[i].value.content.node)).table;
    FlushStepKeeps(t0, w, i);
    FlushStepCascade(t0, w, i);
    UnflushedDecreases(t, r, i);
  }

  /** A flush step of a sweep extends the flush order by the flushed entry
      and keeps `InOrder`. */
  lemma FlushStepOrdered(t0: Table, w: Writer, i: nat, order: seq<nat>)
    requires Valid(w) && Keeps(t0, w.table) && InOrder(t0, w.table, order)
    requires Pending(w.table, i)
    ensures InOrder(t0, FlushIndirect(w, i).table, order + [i])
  {
    var t := w.table;
    var h := t[i].value;
    assert HandleOk(h);
    var n := h.content.node;
    var r := FlushIndirect(w, i).table;
    assert r == FlushObject(w, i, MayPack(n)).table;
    var o := order + [i];
    assert t0[i].Some? && t0[i].value.content == h.content;
    assert Holds(t0, i) && Flushed(r, i);
    forall m | 0 <= m < |o| ensures Holds(t0, o[m]) && Flushed(r, o[m]) && Earned(t0, o, m) {
      if m < |order| {
        assert o[m] == order[m] && Earned(t0, order, m) && Flushed(t, o[m]);
        assert r[o[m]] == MarkSlot(t[o[m]], FlushTarget(t, n, o[m]));
        if !Waiting(t0, o[m]) {
          ReachedExtend(t0, order, i, m, m, o[m]);
        }
      } else {
        assert Waiting(t0, i) || Reached(t0, order, |order|, i);
        if !Waiting(t0, i) {
          ReachedExtend(t0, order, i, |order|, |order|, i);
        }
      }
    }
    forall k | 0 <= k < |r| && Flushed(r, k) && !Flushed(t0, k) ensures k in o {
      if k != i {
        assert r[k] == MarkSlot(t[k], FlushTarget(t, n, k));
        assert k in order;
      }
    }
    forall k | 0 <= k < |r| && r[k].Some? && r[k].value.flags.mustBeFlushed
      ensures Waiting(t0, k) || Reached(t0, o, |o|, k)
    {
      assert k != i;
      assert r[k] == MarkSlot(t[k], FlushTarget(t, n, k));
      if t[k].value.flags.mustBeFlushed {
        if !Waiting(t0, k) {
          ReachedExtend(t0, order, i, |order|, |o|, k);
        }
      } else {
        assert FlushTarget(t, n, k) && !t[k].value.flags.flushed;
        assert t[k].value.content == t0[k].value.content;
        assert FlushTarget(t0, t0[o[|order|]].value.content.node, k);
      }
    }
  }

  lemma FlushStepKeeps(t0: Table, w: Writer, i: nat)
    requires Valid(w) && Keeps(t0, w.table)
    requires Pending(w.table, i)
    ensures Keeps(t0, FlushIndirect(w, i).table)
  {
    var t := w.table;
    assert HandleOk(t[i].value);
    var r := FlushIndirect(w, i).table;
    assert r == FlushObject(w, i, MayPack(t[i].value.content.node)).table;
    forall j | 0 <= j < |t0| && Flushed(t0, j) ensures r[j] == t0[j] {
      assert Flushed(t, j) && j != i;
    }
  }

  lemma FlushStepCascade(t0: Table, w: Writer, i: nat)
    requires Valid(w) && Keeps(t0, w.table) && CascadeClosed(t0, w.table)
    requires Pending(w.table, i)
    ensures |FlushIndirect(w, i).table| == |t0|
    ensures CascadeClosed(t0, FlushIndirect(w, i).table)
  {
    var t := w.table;
    var h := t[i].value;
    assert HandleOk(h);
    var n := h.content.node;
    var r := FlushIndirect(w, i).table;
    assert r == FlushObject(w, i, MayPack(n)).table;
    forall j, k: nat | 0 <= j < |t0| && Flushed(r, j) && !Flushed(t0, j) && t0[j].Some? && t0[j].value.content.Resident?
      && FlushTarget(t0, t0[j].value.content.node, k)
      ensures Covered(r, k)
    {
      if j == i {
        assert t0[i].value.content.node == n;
        if k < |t| && t[k].Some? && !Flushed(t, k) && k != i {
          assert t[k].value.content == t0[k].value.content;
          assert FlushTarget(t, n, k);
        }
      } else {
        assert Flushed(t, j);
        assert Covered(t, k);
      }
    }
  }

  /** A flush step of the incremental sweep: only entry `i` changes its
      Flushed bit, and `Keeps` holds. */
  lemma ModifiedStep(t0: Table, w: Writer, i: nat)
    requires Valid(w) && Keeps(t0, w.table)
    requires i < |w.table| && w.table[i].Some? && !w.table[i].value.content.Absent?
    ensures Keeps(t0, FlushIndirect(w, i).table)
    ensures forall j :: 0 <= j < |w.table| && j != i ==>
              (Flushed(FlushIndirect(w, i).table, j) <==> Flushed(w.table, j))
  {
    var t := w.table;
    if !t[i].value.flags.flushed {
      var r := FlushIndirect(w, i).table;
      assert HandleOk(t[i].value);
      forall j | 0 <= j < |t0| && Flushed(t0, j) ensures r[j] == t0[j] {
        assert Flushed(t, j) && j != i;
      }
    }
  }

  /** `flushWaitingObjects`: full passes over object numbers 1.. flush every
      waiting object whose content is present, until a pass flushes nothing;
      then a non-empty open object stream is written and closed. */
  method FlushWaitingObjects(w0: Writer) returns (w: Writer, ghost order: seq<nat>, ghost beforeClose: Writer)
    requires Valid(w0)
    ensures Valid(w) && |w.table| == |w0.table|
    ensures NoPending(w.table)
    ensures w.objStm.None? || w.objStm.value.size == 0
    ensures w0.written <= beforeClose.written && beforeClose.table == w.table
    ensures StreamClosed(beforeClose, w)
    ensures Keeps(w0.table, w.table)
    ensures forall j :: 1 <= j < |w0.table| && Pending(w0.table, j) ==> Flushed(w.table, j)
    ensures CascadeClosed(w0.table, w.table)
    ensures InOrder(w0.table, w.table, order)
  {
    w := w0;
    order := [];
    var needFlush := true;
    while needFlush
      invariant Valid(w) && Keeps(w0.table, w.table) && CascadeClosed(w0.table, w.table)
      invariant w0.written <= w.written
      invariant InOrder(w0.table, w.table, order)
      invariant !needFlush ==> NoPending(w.table)
      decreases Unflushed(w.table) + (if needFlush then 1 else 0)
    {
      w, needFlush, order := SweepPass(w0.table, w, order);
    }
    beforeClose := w;
    if w.objStm.Some? && w.objStm.value.size > 0 {
      w := FlushStream(w);
    }
  }

  /** The cleanup after a sweep, from `a` to `b`: an open object stream
      holding objects is appended to the written streams and closed; an empty
      or absent one leaves the writer as it was. */
  predicate StreamClosed(a: Writer, b: Writer)
  {
    if a.objStm.Some? && a.objStm.value.size > 0 then
      b.written == a.written + [a.objStm.value] && b.objStm.None? && b.table == a.table
    else
      b == a
  }

  /** One pass of `flushWaitingObjects` over object numbers 1..: flushes
      every waiting object with content and reports whether it flushed any.
      A pass that flushed nothing leaves nothing waiting. */
  method SweepPass(t0: Table, w0: Writer, ghost order0: seq<nat>) returns (w: Writer, needFlush: bool, ghost order: seq<nat>)
    requires Valid(w0) && |w0.table| == |t0| && Keeps(t0, w0.table) && CascadeClosed(t0, w0.table)
    requires InOrder(t0, w0.table, order0)
    ensures Valid(w) && Keeps(t0, w.table) && CascadeClosed(t0, w.table) && InOrder(t0, w.table, order)
    ensures order0 <= order && w0.written <= w.written
    ensures !needFlush ==> w.table == w0.table && NoPending(w.table)
    ensures needFlush ==> Unflushed(w.table) < Unflushed(w0.table)
  {
    needFlush := false;
    w := w0;
    order := order0;
    var i := 1;
    while i < |w.table|
      invariant 1 <= i
      invariant Valid(w) && Keeps(t0, w.table) && CascadeClosed(t0, w.table) && InOrder(t0, w.table, order)
      invariant order0 <= order && w0.written <= w.written
      invariant !needFlush ==> w.table == w0.table
      invariant !needFlush ==> forall k :: 1 <= k < i && k < |w.table| ==> !Pending(w.table, k)
      invariant needFlush ==> Unflushed(w.table) < Unflushed(w0.table)
      invariant Unflushed(w.table) <= Unflushed(w0.table)
      decreases |w.table| - i
    {
      var entry := w.table[i];
      if entry.Some? && entry.value.flags.mustBeFlushed && !entry.value.content.Absent? {
        FlushStep(t0, w, i);
        FlushStepOrdered(t0, w, i, order);
        w := FlushIndirect(w, i);
        order := order + [i];
        needFlush := true;
      }
      i := i + 1;
    }
  }

  /** An entry `flushModifiedWaitingObjects` flushes: present and Modified. */
  predicate ModifiedPresent(t: Table, j: nat)
  {
    j < |t| && t[j].Some? && t[j].value.flags.modified && !t[j].value.content.Absent?
  }

  /** `flushModifiedWaitingObjects`, for incremental updates: one pass over
      object numbers 1.. flushing every present, Modified object other than
      the open object stream, with no fixed-point repetition; then a
      non-empty open object stream is written and closed. The source reads
      every slot without a null check, so every slot must be filled. */
  method FlushModifiedWaitingObjects(w0: Writer) returns (w: Writer, ghost beforeClose: Writer)
    requires Valid(w0)
    requires forall j :: 1 <= j < |w0.table| ==> w0.table[j].Some?
    ensures Valid(w) && |w.table| == |w0.table|
    ensures w.objStm.None? || w.objStm.value.size == 0
    ensures w0.written <= beforeClose.written && beforeClose.table == w.table
    ensures StreamClosed(beforeClose, w)
    ensures forall j :: 1 <= j < |w0.table| ==>
              (Flushed(w.table, j) <==> Flushed(w0.table, j) || ModifiedPresent(w0.table, j))
    ensures forall j :: 0 <= j < |w0.table| && Flushed(w0.table, j) ==> w.table[j] == w0.table[j]
  {
    w := w0;
    var i := 1;
    while i < |w.table|
      invariant 1 <= i && Valid(w) && Keeps(w0.table, w.table) && w0.written <= w.written
      invariant forall j :: 1 <= j < i && j < |w.table| ==>
                  (Flushed(w.table, j) <==> Flushed(w0.table, j) || ModifiedPresent(w0.table, j))
      invariant forall j :: i <= j < |w.table| ==> w.table[j].Some? && (Flushed(w.table, j) <==> Flushed(w0.table, j))
      decreases |w.table| - i
    {
      var entry := w.table[i].value;
      // The source skips the open object stream's own entry. Object streams
      // are numbered past the table here (`Valid`), so this test never holds
      // in the model; it is kept to mirror the branch.
      var isOpenStream := w.objStm.Some? && w.objStm.value.num == i;
      if !entry.content.Absent? && !isOpenStream && entry.flags.modified {
        ModifiedStep(w0.table, w, i);
        w := FlushIndirect(w, i);
      }
      i := i + 1;
    }
    beforeClose := w;
    if w.objStm.Some? && w.objStm.value.size > 0 {
      w := FlushStream(w);
    }
  }

  /** A sweep over 1 = << /A 2 0 R >>, 2 = [3 0 R], 3 = 5 with only object 1
      waiting: objects 2 and 3 become reachable only through the cascade,
      and all three end up flushed. */
  method SweepExample() returns (w: Writer)
    ensures Flushed(w.table, 1) && Flushed(w.table, 2) && Flushed(w.table, 3)
    ensures NoPending(w.table)
  {
    var idle := Flags(false, false, false);
    var t := [
      None,
      Some(Handle(Flags(false, true, false), Resident(Dict([Entry("A", Ref(2))])), None)),
      Some(Handle(idle, Resident(Arr([Ref(3)])), None)),
      Some(Handle(idle, Resident(Num(5)), None))];
    ghost var order, beforeClose;
    w, order, beforeClose := FlushWaitingObjects(Writer(t, 0, false, None, [], 4));
    assert Pending(t, 1);
    var es := [Entry("A", Ref(2))];
    assert Targets(es[0].value, 2);
    assert EntriesTarget(es, 0, 2);
    assert FlushTarget(t, t[1].value.content.node, 2);
    assert Covered(w.table, 2);
    assert !Pending(w.table, 2);
    var items := [Ref(3)];
    assert Targets(items[0], 3);
    assert ItemsTarget(items, 0, 3);
    assert FlushTarget(t, t[2].value.content.node, 3);
    assert Covered(w.table, 3);
    assert !Pending(w.table, 3);
  }

  /** A sweep over 1 = << /A 2 0 R >>, 2 = << /B 1 0 R >> with nothing
      waiting: the two objects point at each other, but no flush starts the
      cascade, so neither is flushed. */
  method IdleCycleExample() returns (w: Writer)
    ensures !Flushed(w.table, 1) && !Flushed(w.table, 2)
  {
    var idle := Flags(false, false, false);
    var t := [
      None,
      Some(Handle(idle, Resident(Dict([Entry("A", Ref(2))])), None)),
      Some(Handle(idle, Resident(Dict([Entry("B", Ref(1))])), None))];
    ghost var order, beforeClose;
    w, order, beforeClose := FlushWaitingObjects(Writer(t, 0, false, None, [], 3));
    IdleStaysIdle(t, w.table, order);
  }
}

=== FILE: hashing.dfy ===
/** The 31-multiplier polynomial hash of `ByteStore.calculateHash`, computed
    in Java's 32-bit signed `int` arithmetic. */
module Hashing {
  import opened Objects

  const Two31: int := 0x8000_0000
  const Two32: int := 0x1_0000_0000

  /** A Java `int`. */
  predicate IsInt32(x: int)
  {
    -Two31 <= x < Two31
  }

  /** Reduction of an unbounded integer to a Java `int` (two's-complement
      wrap-around). */
  function ToInt32(x: int): (r: int)
    ensures IsInt32(r)
    ensures (r - x) % Two32 == 0
  {
    (x + Two31) % Two32 - Two31
  }

  /** The exact polynomial `b[0]*31^(n-1) + ... + b[n-1]`, without any wrap-around. */
  function Poly(b: seq<byte>): nat
  {
    if |b| == 0 then 0 else Poly(b[..|b| - 1]) * 31 + b[|b| - 1] as int
  }

  /** The hash of a byte sequence: the polynomial reduced to a Java `int`. */
  function Hash(b: seq<byte>): (h: int)
    ensures IsInt32(h)
  {
    ToInt32(Poly(b))
  }

  /** Two integers congruent modulo 2^32 wrap to the same `int`. */
  lemma ToInt32Congruent(x: int, y: int)
    requires (x - y) % Two32 == 0
    ensures ToInt32(x) == ToInt32(y)
  {
    var q := (x - y) / Two32;
    assert x == y + q * Two32;
    assert (x + Two31) % Two32 == (y + Two31 + q * Two32) % Two32;
    ModMultiple(y + Two31, q);
  }

  lemma ModMultiple(a: int, q: int)
    ensures (a + q * Two32) % Two32 == a % Two32
  {
  }

  /** Wrapping after every step gives the same result as wrapping once. */
  lemma StepWraps(h: int, x: int, c: int)
    requires h == ToInt32(x)
    ensures ToInt32(h * 31 + c) == ToInt32(x * 31 + c)
  {
    var q := (h - x) / Two32;
    assert h - x == q * Two32;
    assert (h * 31 + c) - (x * 31 + c) == (q * 31) * Two32;
    ToInt32Congruent(h * 31 + c, x * 31 + c);
  }

  /** `calculateHash`: the loop `hash = hash * 31 + (b[k] & 0xff)` in `int`
      arithmetic computes the wrapped polynomial. */
  method CalculateHash(b: seq<byte>) returns (hash: int)
    ensures IsInt32(hash)
    ensures hash == Hash(b)
  {
    hash := 0;
    var k := 0;
    while k < |b|
      invariant 0 <= k <= |b|
      invariant hash == ToInt32(Poly(b[..k]))
    {
      assert b[..k + 1][..k] == b[..k];
      StepWraps(hash, Poly(b[..k]), b[k] as int);
      hash := ToInt32(hash * 31 + b[k] as int);
      k := k + 1;
    }
    assert b[..k] == b;
  }
}

=== FILE: keyorder.dfy ===
/** The order in which the serializer visits dictionary keys
    (`Arrays.sort` on `PdfName`, i.e. lexicographic order of the names),
    and an insertion sort of dictionary entries by key. */
module KeyOrder {
  import opened Objects

  /** Lexicographic order on names, by character code. */
  predicate KeyLe(a: string, b: string)
  {
    |a| == 0 || (|b| > 0 && (a[0] < b[0] || (a[0] == b[0] && KeyLe(a[1..], b[1..]))))
  }

  lemma KeyLeTotal(a: string, b: string)
    ensures KeyLe(a, b) || KeyLe(b, a)
  {
  }

  lemma KeyLeReflexive(a: string)
    ensures KeyLe(a, a)
  {
  }

  lemma KeyLeAntisymmetric(a: string, b: string)
    requires KeyLe(a, b) && KeyLe(b, a)
    ensures a == b
  {
    if |a| > 0 && |b| > 0 {
      KeyLeAntisymmetric(a[1..], b[1..]);
      assert a == [a[0]] + a[1..];
      assert b == [b[0]] + b[1..];
    }
  }

  lemma KeyLeTransitive(a: string, b: string, c: string)
    requires KeyLe(a, b) && KeyLe(b, c)
    ensures KeyLe(a, c)
  {
    if |a| > 0 && |b| > 0 && |c| > 0 && a[0] == b[0] && b[0] == c[0] {
      KeyLeTransitive(a[1..], b[1..], c[1..]);
    }
  }

  predicate SortedByKey(s: seq<Entry>)
  {
    forall i, j :: 0 <= i < j < |s| ==> KeyLe(s[i].key, s[j].key)
  }

  /** Inserts `e` before the first entry whose key is not below it. */
  function Insert(e: Entry, s: seq<Entry>): seq<Entry>
  {
    if |s| == 0 then [e]
    else if KeyLe(e.key, s[0].key) then [e] + s
    else [s[0]] + Insert(e, s[1..])
  }

  /** Inserting into a sorted sequence keeps it sorted and adds exactly `e`. */
  lemma {:induction false} InsertSorted(e: Entry, s: seq<Entry>)
    requires SortedByKey(s)
    ensures SortedByKey(Insert(e, s))
    ensures multiset(Insert(e, s)) == multiset(s) + multiset{e}
    ensures |Insert(e, s)| == |s| + 1
  {
    if |s| == 0 {
    } else if KeyLe(e.key, s[0].key) {
      InsertFront(e, s);
    } else {
      KeyLeTotal(e.key, s[0].key);
      TailSorted(s);
      InsertSorted(e, s[1..]);
      InsertAfter(e, s, Insert(e, s[1..]));
    }
  }

  /** A sorted sequence stays sorted with an entry in front that is not
      above any of its keys. */
  lemma ConsSorted(x: Entry, s: seq<Entry>)
    requires SortedByKey(s)
    requires forall j :: 0 <= j < |s| ==> KeyLe(x.key, s[j].key)
    ensures SortedByKey([x] + s)
  {
    var t := [x] + s;
    forall i, j | 0 <= i < j < |t| ensures KeyLe(t[i].key, t[j].key) {
      if i > 0 { assert t[i] == s[i - 1] && t[j] == s[j - 1]; }
      else { assert t[j] == s[j - 1]; }
    }
  }

  lemma InsertFront(e: Entry, s: seq<Entry>)
    requires SortedByKey(s) && |s| > 0 && KeyLe(e.key, s[0].key)
    ensures SortedByKey([e] + s)
  {
    forall j | 0 <= j < |s| ensures KeyLe(e.key, s[j].key) {
      if j > 0 { KeyLeTransitive(e.key, s[0].key, s[j].key); }
    }
    ConsSorted(e, s);
  }

  lemma InsertAfter(e: Entry, s: seq<Entry>, rest: seq<Entry>)
    requires SortedByKey(s) && |s| > 0 && KeyLe(s[0].key, e.key)
    requires SortedByKey(rest) && multiset(rest) == multiset(s[1..]) + multiset{e}
    ensures SortedByKey([s[0]] + rest)
    ensures multiset([s[0]] + rest) == multiset(s) + multiset{e}
  {
    assert s == [s[0]] + s[1..];
    forall j | 0 <= j < |rest| ensures KeyLe(s[0].key, rest[j].key) {
      assert rest[j] in multiset(rest);
      if rest[j] != e {
        assert rest[j] in multiset(s[1..]);
        var m :| 0 <= m < |s[1..]| && s[1..][m] == rest[j];
        assert s[m + 1] == rest[j];
      }
    }
    ConsSorted(s[0], rest);
  }

  /** The entries sorted by key: insertion sort. */
  function SortEntries(s: seq<Entry>): seq<Entry>
  {
    if |s| == 0 then [] else Insert(s[0], SortEntries(s[1..]))
  }

  /** Sorting yields a sorted permutation of the entries. */
  lemma {:induction false} SortEntriesSorted(s: seq<Entry>)
    ensures SortedByKey(SortEntries(s))
    ensures multiset(SortEntries(s)) == multiset(s)
    ensures |SortEntries(s)| == |s|
  {
    if |s| > 0 {
      SortEntriesSorted(s[1..]);
      InsertSorted(s[0], SortEntries(s[1..]));
      assert s == [s[0]] + s[1..];
    }
  }

  /** Distinct keys survive any permutation. */
  lemma DistinctKeysPermutation(s: seq<Entry>, t: seq<Entry>)
    requires multiset(s) == multiset(t) && DistinctKeys(s)
    ensures DistinctKeys(t)
  {
    forall i, j | 0 <= i < j < |t| ensures t[i].key != t[j].key {
      assert t[i] in multiset(s) && t[j] in multiset(s);
      var a :| 0 <= a < |s| && s[a] == t[i];
      var b :| 0 <= b < |s| && s[b] == t[j];
      if t[i].key == t[j].key {
        assert a == b;
        assert t[i] == t[j];
        assert t == t[..i] + [t[i]] + t[i + 1..j] + [t[j]] + t[j + 1..];
        assert multiset(t)[t[i]] >= 2;
        DistinctCount(s, a);
        assert false;
      }
    }
  }

  lemma DistinctCount(s: seq<Entry>, a: nat)
    requires DistinctKeys(s) && a < |s|
    ensures multiset(s)[s[a]] == 1
  {
    if |s| > 0 {
      assert s == [s[0]] + s[1..];
      if a == 0 {
        assert s[0] !in s[1..];
        assert multiset(s[1..])[s[0]] == 0;
      } else {
        DistinctCount(s[1..], a - 1);
      }
    }
  }

  lemma SortedHeads(s: seq<Entry>, t: seq<Entry>)
    requires SortedByKey(s) && SortedByKey(t) && DistinctKeys(s)
    requires multiset(s) == multiset(t) && |s| > 0
    ensures |t| > 0 && s[0] == t[0]
  {
    assert s[0] in multiset(t);
    var m :| 0 <= m < |t| && t[m] == s[0];
    assert t[0] in multiset(s);
    var m' :| 0 <= m' < |s| && s[m'] == t[0];
    KeyLeReflexive(s[0].key);
    assert KeyLe(s[0].key, t[0].key) by { if m' > 0 { } }
    assert KeyLe(t[0].key, s[0].key) by { if m > 0 { } }
    KeyLeAntisymmetric(s[0].key, t[0].key);
    assert m' == 0;
  }

  /** Sequences with the same elements and the same head keep the
      properties `SortedUnique` needs on their tails. */
  lemma TailsAgree(s: seq<Entry>, t: seq<Entry>)
    requires SortedByKey(s) && SortedByKey(t) && DistinctKeys(s)
    requires multiset(s) == multiset(t) && |s| > 0 && |t| > 0 && s[0] == t[0]
    ensures SortedByKey(s[1..]) && SortedByKey(t[1..]) && DistinctKeys(s[1..])
    ensures multiset(s[1..]) == multiset(t[1..])
  {
    TailSorted(s);
    TailSorted(t);
    TailMultiset(s);
    TailMultiset(t);
  }

  lemma TailSorted(s: seq<Entry>)
    requires |s| > 0
    ensures SortedByKey(s) ==> SortedByKey(s[1..])
    ensures DistinctKeys(s) ==> DistinctKeys(s[1..])
  {
    var u := s[1..];
    if SortedByKey(s) {
      forall i, j | 0 <= i < j < |u| ensures KeyLe(u[i].key, u[j].key) {
        assert u[i] == s[i + 1] && u[j] == s[j + 1];
      }
    }
    if DistinctKeys(s) {
      forall i, j | 0 <= i < j < |u| ensures u[i].key != u[j].key {
        assert u[i] == s[i + 1] && u[j] == s[j + 1];
      }
    }
  }

  lemma TailMultiset(s: seq<Entry>)
    requires |s| > 0
    ensures multiset(s[1..]) == multiset(s) - multiset{s[0]}
  {
    assert s == [s[0]] + s[1..];
  }

  /** A sorted arrangement of entries with distinct keys is unique. */
  lemma {:induction false} SortedUnique(s: seq<Entry>, t: seq<Entry>)
    requires SortedByKey(s) && SortedByKey(t) && DistinctKeys(s)
    requires multiset(s) == multiset(t)
    ensures s == t
    decreases |s|
  {
    assert |s| == |multiset(s)| == |t|;
    if |s| > 0 {
      SortedHeads(s, t);
      TailsAgree(s, t);
      SortedUnique(s[1..], t[1..]);
    }
  }

  /** Sorting forgets insertion order: two permutations of the same entries
      (with distinct keys) sort to the same sequence. */
  lemma SortForgetsOrder(s: seq<Entry>, t: seq<Entry>)
    requires DistinctKeys(s) && multiset(s) == multiset(t)
    ensures SortEntries(s) == SortEntries(t)
  {
    SortEntriesSorted(s);
    SortEntriesSorted(t);
    DistinctKeysPermutation(s, SortEntries(s));
    SortedUnique(SortEntries(s), SortEntries(t));
  }
}

=== FILE: objects.dfy ===
/** The PDF object model shared by the writer engine: the node kinds a
    document holds, the identity key of an indirect object, and the small
    helpers (option type, byte type) every other module uses.

    Indirect objects live in a table indexed by object number; a node that
    points at one holds `Ref(num)`, never the object itself, so shared and
    cyclic graphs are plain index relations. */
module Objects {

  /** A byte of PDF output. */
  newtype byte = x: int | 0 <= x < 256

  datatype Option<+T> = None | Some(value: T)

  /** One entry of a dictionary; the key is a PDF name. */
  datatype Entry = Entry(key: string, value: Node)

  /** The PDF object kinds. `Dict` keeps its entries in insertion order;
      well-formed dictionaries have distinct keys (see `DistinctKeys`).
      A `Stream` is a dictionary plus its raw (undecoded) payload. */
  datatype Node =
    | Bool(b: bool)
    | Null
    | Num(n: int)
    | Name(name: string)
    | Str(text: string)
    | Arr(items: seq<Node>)
    | Dict(entries: seq<Entry>)
    | Stream(dict: seq<Entry>, bytes: seq<byte>)
    | Ref(num: nat)

  /** The kind tag that survives when a flushed object's content is released. */
  datatype Kind = BoolKind | NullKind | NumKind | NameKind | StrKind | ArrKind | DictKind | StreamKind | RefKind

  function KindOf(n: Node): Kind
  {
    match n
    case Bool(_) => BoolKind
    case Null => NullKind
    case Num(_) => NumKind
    case Name(_) => NameKind
    case Str(_) => StrKind
    case Arr(_) => ArrKind
    case Dict(_) => DictKind
    case Stream(_, _) => StreamKind
    case Ref(_) => RefKind
  }

  /** The identity of an indirect object: its object number together with the
      identity of the document that owns it. The writer folds this pair into
      a single 32-bit int (`31 * ref.hashCode() + doc.hashCode()`), so two
      distinct pairs can collide there; the model keeps the pair itself. */
  datatype Key = Key(num: nat, doc: nat)

  predicate DistinctKeys(es: seq<Entry>)
  {
    forall i, j :: 0 <= i < j < |es| ==> es[i].key != es[j].key
  }

  /** The entries of a dictionary or of a stream's dictionary. */
  function EntriesOf(n: Node): seq<Entry>
  {
    match n
    case Dict(es) => es
    case Stream(es, _) => es
    case _ => []
  }

  /** A document as the copy engine and the serializer see it: its identity
      and its objects by number (`None` for a free or missing object). */
  datatype Doc = Doc(id: nat, objects: seq<Option<Node>>)

  /** An object reached while walking a document: Java's null, or a node
      together with its indirect reference when it has one. */
  datatype Obj = NullObj | Obj(node: Node, handle: Option<Key>)

  /** Dereferencing as `PdfDictionary.get` / `PdfArray.get` do it: a
      reference becomes its target (null when the target is missing), any
      other node is a direct object. */
  function Deref(d: Doc, n: Node): Obj
  {
    if n.Ref? then
      if n.num < |d.objects| && d.objects[n.num].Some? then Obj(d.objects[n.num].value, Some(Key(n.num, d.id)))
      else NullObj
    else Obj(n, None)
  }
}
